=== FILE: README.md ===
# Quine–McCluskey core of the K-map generator, in Dafny

This project models the minimiser at the heart of `script.js`, which turns a
boolean function of 2 to 5 variables into a small sum of products (SoP, from
minterms) or product of sums (PoS, from maxterms), and proves properties of
the model. The minimiser is a pipeline:

1. **Term preparation** (`Solver.Prepare`). In SoP mode the required terms
   and the don't-cares are grouped and the required terms are covered. In
   PoS mode the zero terms (every term of `[0, 2^n)` that is not a required
   maxterm) are covered and grouped together with the don't-cares. Since a
   don't-care is never a required maxterm, it is always a zero term, so in
   PoS mode the don't-cares are covered too and the union with them adds
   nothing (`Solver.PosGroupIsCover`). The model keeps this as the code
   has it.
2. **Prime-implicant generation** (`Implicants.FindPrimeImplicants`). This
   is a fixed-point loop over levels. Two groups of one level merge when
   they have the same length and all position-wise XORs are one and the
   same power of two. The merged group is the sorted union of the two.
   Groups that took part in no merge are promoted, and the loop stops after
   a level with no merge. Groups are compared by value, which stands for the
   `JSON.stringify` identity of the code.
3. **Cover selection** (`Cover.SelectEssentialImplicants`). An essential pass
   takes every implicant that is the only holder of some term to cover.
   Then a greedy pass repeatedly sorts the remaining implicants by
   descending count of uncovered terms, ties going to the shorter group,
   and takes the first. The sort is stable (`Ranking.RankSort`). As in the
   code, the sorted order is kept from one iteration to the next. Also as in
   the code, the top implicant is appended even when it covers nothing.
4. **Literal synthesis** (`Literals.SimplifyGroupSoP`,
   `Literals.SimplifyGroupPoS`). Each term is rendered MSB first by
   `Bits.DecToBin`. A variable gets a literal exactly when every term of the
   group shows the same bit there. The literal is complemented when that
   bit is 0 (SoP) or 1 (PoS).
5. **Final expression** (`Solver.ComposeExpression`). The terms are joined
   with `" + "` (SoP) or nothing (PoS). The result falls back to `"0"` or
   `"1"` when the join is empty.

`Solver.Solve` runs the whole pipeline. Every term to cover lies in a
selected group, every selected group is a prime implicant of the terms to
group, and every term to cover shows the recorded bit at every literal of a selected
group that holds it.

The modules follow the pipeline:

- `Seqs`: distinctness and insertion-ordered de-duplication.
- `Bits`: powers of two, `^` and `&`, and `decToBin`.
- `Groups`: ascending groups and their sorted union.
- `Implicants`, `Ranking` and `Cover`.
- `Literals` and `Solver`.

The greedy pass of `selectEssentialImplicants` appends the top-ranked
implicant even when it covers no uncovered term, and it goes on until the
remaining list is empty; a variant that stops when the best candidate covers
nothing would pick fewer implicants on such inputs.
`Cover.SelectEssentialImplicants` models the code as written. It proves
that when every term to cover has a holder (which `Solver.PrimesCover` shows
is always the case in the pipeline), each greedy pick removes at least one
uncovered term, so a pick that covers nothing never occurs there.

## Model

| member | source | states |
|---|---|---|
| `Seqs.Dedup` | script.js:119 | The result has no repeats and holds exactly the elements of the input. |
| `Seqs.DedupInto` | script.js:37 | Filling an insertion-ordered set after `acc` keeps `acc` as a prefix, adds exactly the new elements, and keeps distinctness. |
| `Seqs.DedupDistinct` | script.js:119 | De-duplicating a list without repeats returns it unchanged. |
| `Seqs.DedupIntoAppend` | script.js:46 | Adding two batches to the set gives the same list as adding their concatenation. |
| `Seqs.DedupIntoAbsorbed` | script.js:46 | Adding elements the set already holds changes nothing. |
| `Seqs.AddUnique` | script.js:109 | `Map.set` in insertion order: a new key is appended at the end, the old list stays a prefix, a key already present changes nothing, and distinctness is kept. |
| `Bits.XorComm` | script.js:101 | `g1[idx] ^ g2[idx]` does not depend on the order of the pair. |
| `Bits.XorInvolution` | script.js:101 | XOR-ing a term twice with the same value gives it back. |
| `Bits.XorCancel` | script.js:101 | Two terms with the same XOR against a common term are equal. |
| `Bits.PowerOfTwoTestCorrect` | script.js:103 | `d > 0 && (d & (d - 1)) === 0` holds exactly when `d` is a power of two. |
| `Bits.ToBinary` | script.js:164 | `toString(2)` yields at least one character, and every character is a binary digit. |
| `Bits.FromToBinary` | script.js:164 | Reading the `toString(2)` digits back gives the number. |
| `Bits.PadStart` | script.js:164 | `padStart` yields the longer of `len` and the input's length, keeps the string binary, ends with the input, and puts only `'0'` before it. |
| `Bits.DecToBin` | script.js:163-165 | At least `len` binary digits. For a term below `2^len` and `2^32`: exactly `len` digits, digit `j` being bit `len-1-j`. |
| `Bits.DecToBinRoundTrip` | script.js:163-165 | Reading the rendering back gives the term, for every term below `2^32`. |
| `Groups.SortedUnion` | script.js:108 | The merged group is strictly ascending and holds exactly the terms of both groups. |
| `Groups.SortedUnique` | script.js:106-109 | Two ascending groups with the same terms are equal, so value equality is the JSON identity. |
| `Implicants.CombinableMeaning` | script.js:100-104 | Two groups merge exactly when they have equal non-zero length and every position-wise XOR is one common power of two. |
| `Implicants.CombinableIrreflexive` | script.js:100-104 | A group never merges with itself. |
| `Implicants.CombinableSymmetric` | script.js:100-104 | The merge test gives the same answer for both orders of a pair. |
| `Implicants.CombinableDisjoint` | script.js:100-104 | Two mergeable ascending groups share no term. |
| `Implicants.MergeDoubles` | script.js:108 | Merging two mergeable ascending groups gives a group of twice their length. |
| `Implicants.BuiltShape` | script.js:90-110 | A group built by merges from single input terms is ascending, drawn from the input, and has a power-of-two size. |
| `Implicants.BuiltSplit` | script.js:104-108 | A built group of more than one term is the merged group of a mergeable pair of built groups of half its size. |
| `Implicants.BuiltReaches` | script.js:92-118 | A built group of at least `2^j` terms means that a built group of exactly `2^j` terms exists. |
| `Implicants.NoneAtLeast` | script.js:92-118 | When no built group has `2^j` terms, every built group is shorter than that. |
| `Implicants.Step` | script.js:98-110 | A mergeable pair is marked used, its union is recorded for the next level, and `madeCombination` is set. Nothing else is marked or recorded, and nothing recorded before is lost. A pair that cannot merge leaves the level unchanged. |
| `Implicants.Scan` | script.js:96-112 | The pair loops keep the level invariant. Every used group took part in a mergeable pair and lies inside some merged group. Every merged group is the union of a mergeable pair, ascending, twice the level's length, and drawn from the input. No merged group appears twice. A merge sets `madeCombination`. Every mergeable pair of the level is merged. |
| `Implicants.StepOk` | script.js:98-110 | One pair step keeps the level invariant. |
| `Implicants.StepDone` | script.js:96-110 | After the step for a pair, every mergeable pair scanned up to and including it is merged. |
| `Implicants.NextAfterStep` | script.js:106-109 | Recording a new merged group keeps the next level ascending, drawn from the input, of twice the length, and free of repeats. |
| `Implicants.UsedAfterStep` | script.js:106-109 | After a merged pair is marked used and its union recorded, every used group is still a group of the level that took part in a mergeable pair and lies inside some recorded group. |
| `Implicants.Unused` | script.js:113-115 | The promoted groups are exactly the groups of the level that were not used. |
| `Implicants.Generate` | script.js:92-118 | Every result group is ascending, non-empty and drawn from the input, and is built: a single input term or the merged group of a mergeable pair of smaller built groups. Everything promoted earlier is kept. Every term held by the current level or an earlier promotion is held by a result group. If no two earlier promotions can be merged, no two result groups can. When the level holds exactly the built groups of its power-of-two length and the earlier promotions exactly the prime ones that are shorter, the result holds exactly the prime implicants: the built groups that merge with no built group. |
| `Implicants.Promote` | script.js:113-117 | A level hands every held term on, to a promoted group or to a group of the next level, and a level without merges has no next level. Every promoted group is shorter than the next level's groups. |
| `Implicants.NextBuilt` | script.js:106-117 | The next level of a level of built groups is built too. |
| `Implicants.NextExact` | script.js:96-117 | After a full scan of the level holding exactly the built groups of `len` terms, the next level holds exactly the built groups of `2 * len` terms. |
| `Implicants.PairMerged` | script.js:96-109 | After a full scan, the union of every mergeable pair of the level is recorded, whichever of the two comes first. |
| `Implicants.PromotedPrimes` | script.js:113-117 | Promoting the unused groups of such a level gives exactly the prime implicants shorter than `2 * len`. |
| `Implicants.LevelAdvance` | script.js:92-118 | One round of the loop hands on exact promotions and an exact next level. After a round without merges, no built group has `2 * len` terms or more. |
| `Implicants.EmptyLevel` | script.js:92 | An empty exact level of `len` terms leaves no built group of `len` terms or more. |
| `Implicants.NextLevelFits` | script.js:92-118 | A level that merged has groups no longer than the input, so the loop ends. |
| `Implicants.UnusedUnmergeable` | script.js:113-115 | A group that took part in no merge cannot be merged with any group of its level. |
| `Implicants.PromotedExactly` | script.js:96-115 | After the scan, a group of the level is promoted exactly when it merges with no group of the level. |
| `Implicants.PairPartner` | script.js:104-107 | A group that took part in a mergeable pair merges with some group of the level. |
| `Implicants.PromotedUnmergeable` | script.js:113-117 | After a level is promoted, no two promoted groups can be merged: groups of one level were all tried, and groups of different levels have different lengths. |
| `Implicants.FindPrimeImplicants` | script.js:88-120 | Empty input gives `[]`. The result has no repeats. Each group is non-empty, ascending, drawn from the input, and built by merges from single input terms. Every input term lies in some result group. No two result groups can be merged. A group is in the result exactly when it is built and merges with no built group. |
| `Implicants.Singles` | script.js:90 | The first level, one singleton per term, is ascending, drawn from the input, and holds every term. It holds exactly the built groups of one term, and no built group is shorter. |
| `Implicants.NothingBuilt` | script.js:88-92 | Without input terms no group is built. |
| `Implicants.DedupKeepsPrimes` | script.js:119 | De-duplication keeps the groups, the coverage of every term, and the absence of mergeable pairs. It keeps exactly the prime implicants. |
| `Ranking.Gain` | script.js:147-148 | The count is at most the group's length, and positive exactly when the group holds an uncovered term. |
| `Ranking.GainCounts` | script.js:147-148 | For a group without repeats, the count is the number of its distinct terms that are still uncovered. |
| `Ranking.Insert` | script.js:146-150 | Insertion keeps the elements (as a multiset) and keeps the comparator order. |
| `Ranking.RankSort` | script.js:146-150 | The sort is a permutation of the remaining list, in comparator order. |
| `Ranking.PickBest` | script.js:146-151 | The chosen implicant is a remaining one with the highest count of uncovered terms, and the shortest among those with that count. The rest is the remaining list minus it, still in comparator order. |
| `Cover.Holders` | script.js:124-129 | The coverage list of a term holds exactly the positions of the implicants that contain it. |
| `Cover.SoleHolderOf` | script.js:133 | A term held by one duplicate-free implicant only has that single position as its coverage list. |
| `Cover.EssentialsUpTo` | script.js:130-140 | The essential positions have no repeats and are valid positions. |
| `Cover.EssentialIndices` | script.js:132-135 | A position is essential exactly when it is the sole holder of some term to cover. |
| `Cover.EssentialCovered` | script.js:136-138 | The covered set is exactly the terms to cover that lie in an essential implicant. |
| `Cover.Uncovered` | script.js:142 | The uncovered list holds exactly the terms to cover that are not covered, without repeats. |
| `Cover.NonEssential` | script.js:143 | The remaining positions are exactly the non-essential ones, without repeats. |
| `Cover.RemoveFirst` | script.js:155-156 | `splice(indexOf(t), 1)` shortens the list by one exactly when `t` is present, and removes only `t`. |
| `Cover.RemoveAll` | script.js:154-157 | Removes exactly the terms of the chosen group. The list gets shorter whenever the group holds one of its terms. |
| `Cover.Leftover` | script.js:154-157 | After a sequence of picks, the uncovered list holds exactly the initial terms that no picked group holds, without repeats. |
| `Cover.SelectEssentialImplicants` | script.js:122-161 | Empty cover gives `[]`. The output is the implicants at the `picked` positions, and no position comes twice. The essentials come first, in their insertion order. Every sole holder is picked. If every term to cover has a holder, the output covers every term, and the number picked is at most the essentials plus the terms they left uncovered. Each pick after the essentials was made while some term was uncovered. It holds the most terms still uncovered after the earlier picks, among all implicants not picked before, and is the shortest among those with that count. The loop stops only when nothing is uncovered or every implicant is picked. |
| `Cover.GreedyStart` | script.js:141-143 | The state after the essential pass satisfies the greedy loop invariant. |
| `Cover.GreedyStepOk` | script.js:144-158 | One greedy iteration keeps the loop invariant and shortens the remaining list. |
| `Cover.GreedyChoiceStep` | script.js:145-157 | Appending the pick keeps every pick greedy, and the uncovered list stays what the picks leave of the initial one. |
| `Cover.ChoiceNew` | script.js:146-153 | The implicant taken from the sorted remaining list is a greedy pick after the earlier ones. |
| `Cover.ChoiceKept` | script.js:153 | A greedy pick stays greedy when later picks are appended. |
| `Cover.StepPositions` | script.js:151-153 | The picked and remaining positions still split the implicants, and the essentials stay a prefix. |
| `Cover.StepTerms` | script.js:153-157 | Every term to cover stays uncovered or held by a picked implicant. |
| `Cover.GreedyShrinks` | script.js:146-157 | When every uncovered term has a remaining holder, the chosen implicant removes at least one uncovered term. |
| `Cover.GreedyKeepsHolders` | script.js:151-157 | Every term still uncovered after a pick has a holder among the rest. |
| `Cover.HoldersRemain` | script.js:142-143 | After the essential pass, an uncovered term with a holder has a non-essential holder. |
| `Cover.CoveredByEssentials` | script.js:136-142 | A term to cover that is not left uncovered lies in an essential implicant. |
| `Cover.PickLeavesRest` | script.js:151 | `shift` removes exactly the chosen position and leaves a duplicate-free list one shorter. |
| `Literals.Shared` | script.js:173-179 | Literals come in variable order, for agreeing positions only, each recording the first rendering's character there. |
| `Literals.SharedComplete` | script.js:173-179 | No agreeing position is skipped. |
| `Literals.GroupLiterals` | script.js:171-179 | Every literal is for one of the `n` variables, and its bit is a binary digit. |
| `Literals.RepDigit` | script.js:171 | Character `j` of a valid term's rendering is the digit of the term's bit for variable `j`. |
| `Literals.AgreeMeans` | script.js:174-175 | The renderings agree at position `j` exactly when the terms agree on variable `j`'s bit. |
| `Literals.LiteralsExact` | script.js:171-179 | Variable `j` gets a literal exactly when all terms share its bit, and the literal records that shared bit. |
| `Literals.GroupMatches` | script.js:171-179 | Every term of the group shows the recorded bit at every literal. So it satisfies the SoP product and falsifies the PoS sum. |
| `Literals.FullGroupHasNoLiterals` | script.js:169 | A group of all `2^n` terms shares no bit, so the constant returned for it is the empty product (or sum). |
| `Literals.Letter` | script.js:170 | The variable name of position `i` is a capital letter, and reading it back gives `i`. |
| `Literals.SopLiteral` | script.js:176-177 | An SoP literal starts with its letter and reads back as that one literal. |
| `Literals.PosLiteral` | script.js:192-193 | A PoS literal starts with its letter and reads back as that one literal. |
| `Literals.SopRoundTrip` | script.js:176-177 | The SoP text reads back as exactly its literals. A `'` marks a 0 bit. |
| `Literals.SopParseExact` | script.js:173-180 | Conversely, a text that reads back as some literals is exactly their SoP text. The reader accepts only letters, each optionally followed by `'`. |
| `Literals.SopHead` | script.js:176-177 | The first literal of a readable SoP text, followed by what is left after it, is the whole text. |
| `Literals.SopTextCons` | script.js:176-180 | Putting a literal in front of a list puts its own text in front of the SoP text. |
| `Literals.PosRoundTrip` | script.js:192-197 | The PoS text inside the parentheses reads back as exactly its literals, separated by `" + "`. A `'` marks a 1 bit. |
| `Literals.PosParseExact` | script.js:189-197 | Conversely, a text that reads back as some literals is exactly their PoS text. The reader accepts only letters, each optionally followed by `'`, separated by exactly `" + "`. |
| `Literals.PosReadBack` | script.js:189-197 | Literals read from a PoS text are readable and print back as that text, and a non-empty text reads as at least one literal. |
| `Literals.PosHead` | script.js:192-193 | The first literal of a readable PoS text, followed by what is left after it, is the whole text. |
| `Literals.PosJoinCons` | script.js:197 | Putting a literal in front of a non-empty list adds its text and one `" + "` to the PoS text. |
| `Literals.PosParseUnfold` | script.js:189-197 | After the first literal, the reader accepts the end of the text or exactly `" + "` followed by a readable rest, and rejects anything else. |
| `Literals.SimplifyGroupSoP` | script.js:167-181 | Empty group gives `""`, the whole space gives `"1"`, and otherwise the text reads back as the group's literals, so by `Literals.SopParseExact` it is their SoP text. |
| `Literals.SimplifyGroupPoS` | script.js:183-198 | Empty group gives `""`, the whole space gives `"0"`, and otherwise the text is parenthesised and its inside reads back as the group's literals, so by `Literals.PosParseExact` it is their PoS text. |
| `Solver.Absent` | script.js:40-45 | The zero terms are exactly the terms below the limit that are not required, in ascending order. |
| `Solver.Prepare` | script.js:36-48 | The group list has no repeats and holds exactly the covered terms and the don't-cares. SoP covers the required terms. PoS covers exactly the valid terms that are not required. |
| `Solver.PosGroupIsCover` | script.js:40-47 | In PoS mode every don't-care is covered, and the group list equals the cover list. |
| `Solver.PreparedInRange` | script.js:36-48 | The cover list has no repeats, and every prepared term is below `2^n`. |
| `Solver.Simplify` | script.js:51-52 | An empty group gives `""` and the whole space the mode's neutral constant. Any other group reads back as its literals: a product for SoP, a parenthesised sum for PoS. |
| `Solver.Join` | script.js:204 | The join starts with the first term, and its length is the terms' total length plus one separator between each neighbouring pair. |
| `Solver.JoinSnoc` | script.js:204 | Appending a term to a non-empty list appends one separator and the term to the join. |
| `Solver.JoinEmpty` | script.js:204 | `join` is empty exactly when every term is empty and no separator is written. |
| `Solver.ComposeExpression` | script.js:203-204 | The expression is never empty, and it is the fallback constant when no group was selected. |
| `Solver.ComposeFallsBack` | script.js:203-204 | The fallback replaces the join exactly when every term is empty and there is at most one of them, or the mode is PoS. |
| `Solver.SelectGroups` | script.js:35-49 | Every selected group is ascending, non-empty, drawn from the terms to group, built by merges from single terms, and prime: it merges with no built group. Every term to cover lies in a selected group whose literals it matches, and nothing to cover gives no group. |
| `Solver.PrimesCover` | script.js:49-50 | Every term to cover has a prime implicant holding it. |
| `Solver.SelectedGroups` | script.js:49-52 | The selected groups are prime implicants drawn from the terms to group, and every term to cover matches the literals of a selected group that holds it. |
| `Solver.Solve` | script.js:36-52 | With nothing to cover, no group and the fallback expression. Every selected group is ascending, non-empty, drawn from the terms to group, built by merges from single terms, and prime. Every term to cover lies in a selected group whose literals it matches. There is one synthesised term per group, and the final expression joins them. |

## Left out

- The DOM lookups, event listeners and the `setTimeout` debounce (script.js:2-21) are not modelled: they are UI plumbing and timers.
- `parseAndValidateInputs` (script.js:59-86) is not modelled; it reads the DOM and parses text. The model takes its terms as naturals, which the code does not enforce: it rejects non-numbers and terms above `2^n - 1` (script.js:67-74), but a negative term such as `-1` or a fraction such as `1.5` passes. `Solver.ValidInput` states what the model assumes: 2 to 5 variables, both lists ascending and without repeats, every term a natural below `2^n`, and the two lists disjoint.
- `renderSolution` beyond its expression lines, `renderKMap` and `getKMapLayout` are not modelled: they build markup.
- The `numVars` argument of `findPrimeImplicants` is unused by the code and is dropped.
- `Implicants.FindPrimeImplicants`: states that the result holds exactly the built groups (merged from single input terms, `Implicants.Built`) that merge with no built group. It does not state that a built group is a cube, that is, one whose terms all agree on the bits outside a fixed set of free variables, so primality is stated against built groups rather than against arbitrary cubes of input terms. That needs a theory of cubes over the groups.
- Gain: its own contract bounds the count and says when it is positive. The exact count is stated by `Ranking.GainCounts` for groups without repeats, which covers every prime implicant. It is kept out of `Gain`'s contract because every comparison of the sort would then carry set cardinalities.
- Join: its own contract states the first term and the length. The position of every separator is stated by `Solver.JoinSnoc`, and together they fix the join.
- `Ranking.RankSort`: stability is obtained by construction (insertion taking elements left to right) and is not stated as a separate property.
- `Cover.SelectEssentialImplicants`: among implicants with the same count and the same length, the stable sort's order decides the pick. The contract states that the pick is one of them, not which one.
- `Cover.SelectEssentialImplicants`: requires the terms to cover to be free of repeats, which every caller guarantees; the behaviour of the coverage map on repeated keys is not modelled.
- `Literals.SimplifyGroupSoP`: requires at most 26 variables; beyond the alphabet the code would append the text `undefined`, which is not modelled.
- `Literals.SimplifyGroupPoS`: requires at most 26 variables, for the same reason.
- `Solver.Solve`: states coverage and literal correctness per selected group, not that the final expression is equivalent to the boolean function, which would need the cube property above.
- `Bits.DecToBin`: terms are naturals; negative inputs to `>>> 0` are not modelled, and `^`/`&` are modelled on naturals, which agrees with 32-bit JavaScript for the terms below `2^31` that occur here.

=== FILE: bits.dfy ===
/** Bit-level helpers on non-negative terms: powers of two, the JavaScript
    `^` and `&` operators, the power-of-two test of the merge step, and
    `decToBin`, the fixed-width MSB-first binary rendering. Terms are far
    below 2^31 here, so the 32-bit operators act exactly on the naturals. */
module Bits {

  function Pow2(k: nat): (r: nat)
    ensures r >= 1
  {
    if k == 0 then 1 else 2 * Pow2(k - 1)
  }

  /** Bitwise exclusive or (`a ^ b`). */
  function Xor(a: nat, b: nat): nat
    decreases a + b
  {
    if a == 0 then b
    else if b == 0 then a
    else 2 * Xor(a / 2, b / 2) + (if a % 2 == b % 2 then 0 else 1)
  }

  /** Bitwise and (`a & b`). */
  function And(a: nat, b: nat): nat
    decreases a + b
  {
    if a == 0 || b == 0 then 0
    else 2 * And(a / 2, b / 2) + (if a % 2 == 1 && b % 2 == 1 then 1 else 0)
  }

  /** Bit `k` of `m`, counting from the least significant bit. */
  function Bit(m: nat, k: nat): nat
    decreases k
  {
    if k == 0 then m % 2 else Bit(m / 2, k - 1)
  }

  /** The power-of-two test of script.js:103: `d` is positive and clearing
      its lowest set bit leaves zero. */
  predicate PowerOfTwoTest(d: nat) {
    d > 0 && And(d, d - 1) == 0
  }

  lemma {:induction false} AndSelf(e: nat)
    ensures And(e, e) == e
    decreases e
  {
    if e > 0 {
      AndSelf(e / 2);
    }
  }

  lemma {:induction false} XorSelf(a: nat)
    ensures Xor(a, a) == 0
    decreases a
  {
    if a > 0 {
      XorSelf(a / 2);
    }
  }

  lemma {:induction false} XorComm(a: nat, b: nat)
    ensures Xor(a, b) == Xor(b, a)
    decreases a + b
  {
    if a > 0 && b > 0 {
      XorComm(a / 2, b / 2);
    }
  }

  /** Applying the same mask twice gives the term back. */
  lemma {:induction false} XorInvolution(a: nat, b: nat)
    ensures Xor(a, Xor(a, b)) == b
    decreases a + b
  {
    if a > 0 && b > 0 {
      XorInvolution(a / 2, b / 2);
      var c := Xor(a, b);
      assert c / 2 == Xor(a / 2, b / 2) && c % 2 == (if a % 2 == b % 2 then 0 else 1);
      if c == 0 {
        assert Xor(a / 2, 0) == b / 2;
        assert a == b;
      }
    } else if a > 0 {
      XorSelf(a);
    }
  }

  /** Two terms with the same difference from a common term are equal. */
  lemma XorCancel(a: nat, b: nat, c: nat)
    requires Xor(a, b) == Xor(a, c)
    ensures b == c
  {
    XorInvolution(a, b);
    XorInvolution(a, c);
  }

  /** The bit trick accepts exactly the positive powers of two. */
  lemma {:induction false} PowerOfTwoTestCorrect(d: nat)
    ensures PowerOfTwoTest(d) <==> exists k: nat :: Pow2(k) == d
    decreases d
  {
    if d == 0 {
      forall k: nat ensures Pow2(k) != d { }
    } else if d == 1 {
      assert And(1, 0) == 0;
      assert Pow2(0) == d;
    } else if d % 2 == 0 {
      PowerOfTwoTestCorrect(d / 2);
      PowerOfTwoEven(d);
    } else {
      PowerOfTwoOdd(d);
    }
  }

  /** An even number passes the test exactly when its half does, and is a
      power of two exactly when its half is. */
  lemma PowerOfTwoEven(d: nat)
    requires d >= 2 && d % 2 == 0
    requires PowerOfTwoTest(d / 2) <==> exists k: nat :: Pow2(k) == d / 2
    ensures PowerOfTwoTest(d) <==> exists k: nat :: Pow2(k) == d
  {
    var e := d / 2;
    assert (d - 1) / 2 == e - 1 && (d - 1) % 2 == 1;
    assert And(d, d - 1) == 2 * And(e, e - 1);
    assert PowerOfTwoTest(d) <==> PowerOfTwoTest(e);
    HalfPower(d);
  }

  /** An even number is a power of two exactly when its half is. */
  lemma HalfPower(d: nat)
    requires d >= 2 && d % 2 == 0
    ensures (exists k: nat :: Pow2(k) == d) <==> (exists k: nat :: Pow2(k) == d / 2)
  {
    var e := d / 2;
    assert d == 2 * e;
    if exists k: nat :: Pow2(k) == d {
      var k: nat :| Pow2(k) == d;
      assert k > 0;
      var j: nat := k - 1;
      assert Pow2(k) == 2 * Pow2(j);
      assert Pow2(j) == e;
    }
    if exists k: nat :: Pow2(k) == e {
      var k: nat :| Pow2(k) == e;
      assert Pow2(k + 1) == 2 * Pow2(k) == d;
    }
  }

  /** An odd number above one fails the test and is no power of two. */
  lemma PowerOfTwoOdd(d: nat)
    requires d >= 2 && d % 2 == 1
    ensures !PowerOfTwoTest(d) && forall k: nat :: Pow2(k) != d
  {
    var e := d / 2;
    assert (d - 1) / 2 == e && (d - 1) % 2 == 0;
    assert And(d, d - 1) == 2 * And(e, e);
    AndSelf(e);
    forall k: nat ensures Pow2(k) != d {
      if k > 0 {
        assert Pow2(k) % 2 == 0;
      }
    }
  }

  /** The character `toString(2)` uses for a bit. */
  function Digit(b: nat): char {
    if b == 0 then '0' else '1'
  }

  predicate IsDigit(c: char) {
    c == '0' || c == '1'
  }

  /** `m.toString(2)`: the binary digits of `m`, most significant first,
      with no leading zero (and "0" for zero). */
  function ToBinary(m: nat): (r: string)
    ensures |r| >= 1
    ensures forall j :: 0 <= j < |r| ==> IsDigit(r[j])
    decreases m
  {
    if m < 2 then [Digit(m)] else ToBinary(m / 2) + [Digit(m % 2)]
  }

  /** `s.padStart(len, "0")`. */
  function PadStart(s: string, len: nat): (r: string)
    ensures |r| == if |s| >= len then |s| else len
    ensures r[|r| - |s|..] == s && forall j :: 0 <= j < |r| - |s| ==> r[j] == '0'
    ensures (forall j :: 0 <= j < |s| ==> IsDigit(s[j])) ==> forall j :: 0 <= j < |r| ==> IsDigit(r[j])
  {
    if |s| >= len then s else seq(len - |s|, _ => '0') + s
  }

  const Uint32Limit: nat := 0x1_0000_0000

  lemma {:induction false} Pow2Add(a: nat, b: nat)
    ensures Pow2(a + b) == Pow2(a) * Pow2(b)
    decreases a
  {
    if a > 0 {
      Pow2Add(a - 1, b);
    }
  }

  lemma {:induction false} Pow2Grows(a: nat, b: nat)
    requires a <= b
    ensures Pow2(a) <= Pow2(b)
    decreases b
  {
    if a < b {
      Pow2Grows(a, b - 1);
    }
  }

  /** Powers of two grow strictly with the exponent. */
  lemma Pow2Order(a: nat, b: nat)
    ensures a < b ==> 2 * Pow2(a) <= Pow2(b)
    ensures a <= b ==> Pow2(a) <= Pow2(b)
    ensures b > 0 ==> Pow2(b) == 2 * Pow2(b - 1)
  {
    if a < b {
      Pow2Grows(a + 1, b);
    } else if a == b {
      Pow2Grows(a, b);
    }
  }

  /** Up to 32 variables, every term below `2^n` is below 2^32, so the
      unsigned shift of `decToBin` leaves it alone. */
  lemma Pow2Below32(n: nat)
    requires n <= 32
    ensures Pow2(n) <= Uint32Limit
  {
    assert Pow2(2) == 4 by {
      assert Pow2(1) == 2;
    }
    Pow2Add(2, 2);
    assert Pow2(4) == 16;
    Pow2Add(4, 4);
    assert Pow2(8) == 256;
    Pow2Add(8, 8);
    assert Pow2(16) == 65536;
    Pow2Add(16, 16);
    assert Pow2(32) == Uint32Limit;
    Pow2Grows(n, 32);
  }

  /** `decToBin` (script.js:163-165): the binary digits of the term taken
      as an unsigned 32-bit number, left-padded with '0' to `len`. For a
      term below 2^32 the unsigned conversion is the identity; above it, it
      keeps the low 32 bits. */
  function DecToBin(m: nat, len: nat): (r: string)
    ensures |r| >= len
    ensures forall j :: 0 <= j < |r| ==> IsDigit(r[j])
    ensures 1 <= len && m < Pow2(len) && m < Uint32Limit ==> ShowsBits(r, m, len)
  {
    var bin := ToBinary(m % Uint32Limit);
    assert 1 <= len && m < Pow2(len) && m < Uint32Limit ==> ShowsBits(PadStart(bin, len), m, len) by {
      if 1 <= len && m < Pow2(len) && m < Uint32Limit {
        assert m % Uint32Limit == m;
        PaddedDigits(m, len);
      }
    }
    PadStart(bin, len)
  }

  /** `r` is exactly the `len` bits of `m`, most significant first. */
  predicate ShowsBits(r: string, m: nat, len: nat) {
    |r| == len && forall j :: 0 <= j < len ==> r[j] == Digit(Bit(m, len - 1 - j))
  }

  /** Padding the binary digits of a term below `2^len` gives its `len`
      bits, most significant first. */
  lemma PaddedDigits(m: nat, len: nat)
    requires 1 <= len && m < Pow2(len)
    ensures ShowsBits(PadStart(ToBinary(m), len), m, len)
  {
    ToBinaryFits(m, len);
    forall j | 0 <= j < len ensures PadStart(ToBinary(m), len)[j] == Digit(Bit(m, len - 1 - j)) {
      PaddedDigit(m, len, j);
    }
  }

  lemma PaddedDigit(m: nat, len: nat, j: nat)
    requires 1 <= len && m < Pow2(len) && j < len
    ensures |PadStart(ToBinary(m), len)| == len
    ensures PadStart(ToBinary(m), len)[j] == Digit(Bit(m, len - 1 - j))
  {
    ToBinaryFits(m, len);
    if j < len - |ToBinary(m)| {
      PaddedZero(m, len, j);
    } else {
      PaddedBit(m, len, j);
    }
  }

  /** A padding position shows '0', and the term's bit there is zero. */
  lemma PaddedZero(m: nat, len: nat, j: nat)
    requires |ToBinary(m)| <= len && j < len - |ToBinary(m)|
    ensures PadStart(ToBinary(m), len)[j] == '0' == Digit(Bit(m, len - 1 - j))
  {
    ToBinaryHighBits(m);
    assert Bit(m, len - 1 - j) == 0;
  }

  /** A position past the padding shows the matching binary digit. */
  lemma PaddedBit(m: nat, len: nat, j: nat)
    requires |ToBinary(m)| <= len && len - |ToBinary(m)| <= j < len
    ensures PadStart(ToBinary(m), len)[j] == Digit(Bit(m, len - 1 - j))
  {
    var bin := ToBinary(m);
    var k := j - (len - |bin|);
    PadStartAt(bin, len, j);
    ToBinaryDigits(m);
    assert bin[k] == Digit(Bit(m, |bin| - 1 - k));
    assert |bin| - 1 - k == len - 1 - j;
  }

  /** Past the padding, the padded string shows the input. */
  lemma PadStartAt(s: string, len: nat, j: nat)
    requires |s| <= len && len - |s| <= j < len
    ensures PadStart(s, len)[j] == s[j - (len - |s|)]
  {
    var r := PadStart(s, len);
    assert r[len - |s|..][j - (len - |s|)] == r[j];
  }

  lemma {:induction false} BitOfZero(k: nat)
    ensures Bit(0, k) == 0
    decreases k
  {
    if k > 0 {
      BitOfZero(k - 1);
    }
  }

  /** Digit `j` of `ToBinary(m)` is the bit of weight `|r| - 1 - j`. */
  lemma {:induction false} ToBinaryDigits(m: nat)
    ensures forall j :: 0 <= j < |ToBinary(m)| ==>
              ToBinary(m)[j] == Digit(Bit(m, |ToBinary(m)| - 1 - j))
    decreases m
  {
    if m >= 2 {
      ToBinaryDigits(m / 2);
      var r := ToBinary(m);
      var p := ToBinary(m / 2);
      assert r == p + [Digit(m % 2)];
      forall j | 0 <= j < |r| ensures r[j] == Digit(Bit(m, |r| - 1 - j)) {
        if j < |p| {
          assert r[j] == p[j];
          assert p[j] == Digit(Bit(m / 2, |p| - 1 - j));
          assert Bit(m, |r| - 1 - j) == Bit(m / 2, |p| - 1 - j);
        } else {
          assert r[j] == Digit(m % 2);
          assert Bit(m, 0) == m % 2;
        }
      }
    }
  }

  /** Every bit at or above the length of `ToBinary(m)` is zero. */
  lemma {:induction false} ToBinaryHighBits(m: nat)
    ensures forall k :: k >= |ToBinary(m)| ==> Bit(m, k) == 0
    decreases m
  {
    if m < 2 {
      forall k | k >= 1 ensures Bit(m, k) == 0 {
        BitOfZero(k - 1);
      }
    } else {
      ToBinaryHighBits(m / 2);
      forall k | k >= |ToBinary(m)| ensures Bit(m, k) == 0 {
        assert Bit(m, k) == Bit(m / 2, k - 1);
      }
    }
  }

  lemma {:induction false} ToBinaryFits(m: nat, len: nat)
    requires 1 <= len && m < Pow2(len)
    ensures |ToBinary(m)| <= len
    decreases m
  {
    if m >= 2 {
      assert len >= 2;
      ToBinaryFits(m / 2, len - 1);
    }
  }

  /** Reads an MSB-first string of '0'/'1' back as a number. */
  function FromBinary(s: string): nat
    decreases |s|
  {
    if s == [] then 0
    else 2 * FromBinary(s[..|s| - 1]) + (if s[|s| - 1] == '1' then 1 else 0)
  }

  lemma {:induction false} FromToBinary(m: nat)
    ensures FromBinary(ToBinary(m)) == m
    decreases m
  {
    if m >= 2 {
      var r := ToBinary(m);
      assert r[..|r| - 1] == ToBinary(m / 2);
      FromToBinary(m / 2);
    }
  }

  lemma {:induction false} FromBinaryLeadingZeros(k: nat, s: string)
    ensures FromBinary(seq(k, _ => '0') + s) == FromBinary(s)
    decreases |s|
  {
    var z: string := seq(k, _ => '0');
    if s == [] {
      assert z + s == z;
      ZerosValue(k);
    } else {
      var t := z + s;
      assert t[..|t| - 1] == z + s[..|s| - 1];
      assert t[|t| - 1] == s[|s| - 1];
      FromBinaryLeadingZeros(k, s[..|s| - 1]);
    }
  }

  lemma {:induction false} ZerosValue(k: nat)
    ensures FromBinary(seq(k, _ => '0')) == 0
    decreases k
  {
    if k > 0 {
      var z: string := seq(k, _ => '0');
      assert z[..k - 1] == seq(k - 1, _ => '0');
      ZerosValue(k - 1);
    }
  }

  /** Reading the binary rendering back gives the term (below 2^32). */
  lemma DecToBinRoundTrip(m: nat, len: nat)
    requires m < Uint32Limit
    ensures FromBinary(DecToBin(m, len)) == m
  {
    var bin := ToBinary(m);
    assert m % Uint32Limit == m;
    assert DecToBin(m, len) == PadStart(bin, len);
    PadStartValue(bin, len);
    FromToBinary(m);
  }

  /** Leading zeros do not change the value read back. */
  lemma PadStartValue(s: string, len: nat)
    ensures FromBinary(PadStart(s, len)) == FromBinary(s)
  {
    if |s| < len {
      assert PadStart(s, len) == seq(len - |s|, _ => '0') + s;
      FromBinaryLeadingZeros(len - |s|, s);
    }
  }
}

=== FILE: cover.dfy ===
/** Cover selection, `selectEssentialImplicants` (script.js:122-161): an
    essential-implicant pass over the terms to cover, then a greedy pass
    over the remaining prime implicants. */
module Cover {
  import opened Seqs
  import opened Groups
  import opened Ranking

  /** The coverage list of term `m` (script.js:124-129): the positions of the
      prime implicants holding `m`, ascending, one entry per occurrence,
      restricted to positions `from` and above. */
  function Holders(pis: seq<Group>, m: nat, from: nat): (r: seq<nat>)
    ensures forall k :: k in r <==> from <= k < |pis| && m in pis[k]
    decreases |pis| - from
  {
    if from >= |pis| then []
    else
      var here: seq<nat> := seq(multiset(pis[from])[m], _ => from);
      assert forall k :: k in here <==> m in pis[from] && k == from by {
        assert m in pis[from] <==> multiset(pis[from])[m] > 0;
        if m in pis[from] {
          assert here[0] == from;
        }
      }
      here + Holders(pis, m, from + 1)
  }

  /** `m` is held by `pis[i]` alone, and only once there: the case
      `piIndices.length === 1` of script.js:133. */
  predicate SoleHolder(pis: seq<Group>, m: nat, i: nat) {
    Holders(pis, m, 0) == [i]
  }

  /** A term held by exactly one prime implicant, which is duplicate-free,
      has that implicant as its only holder. */
  lemma {:induction false} SoleHolderOf(pis: seq<Group>, m: nat, i: nat, from: nat)
    requires i < |pis| && m in pis[i] && Distinct(pis[i])
    requires forall j :: 0 <= j < |pis| && j != i ==> m !in pis[j]
    requires from <= |pis|
    ensures Holders(pis, m, from) == if from <= i then [i] else []
    decreases |pis| - from
  {
    if from < |pis| {
      SoleHolderOf(pis, m, i, from + 1);
      if from == i {
        DistinctCount(pis[i], m);
        assert seq(1, _ => from) == [i];
      } else {
        assert multiset(pis[from])[m] == 0;
        assert seq(0, _ => from) == [];
      }
    }
  }

  lemma {:induction false} DistinctCount(g: Group, m: nat)
    requires Distinct(g) && m in g
    ensures multiset(g)[m] == 1
    decreases |g|
  {
    assert g == [g[0]] + g[1..];
    if g[0] == m {
      assert m !in g[1..];
    } else {
      DistinctCount(g[1..], m);
    }
  }

  /** The state of the essential pass: `essentialPIIndices` in insertion
      order and `coveredTerms`. */
  datatype EssentialPass = EssentialPass(indices: seq<nat>, covered: set<nat>)

  /** The essential pass (script.js:130-140) over the first `k` terms to
      cover, in their order (the insertion order of the `coverage` map). */
  function EssentialsUpTo(pis: seq<Group>, cover: seq<nat>, k: nat): (r: EssentialPass)
    requires k <= |cover|
    ensures Distinct(r.indices)
    ensures IndicesBelow(r.indices, |pis|)
    decreases k
  {
    if k == 0 then EssentialPass([], {})
    else
      var prev := EssentialsUpTo(pis, cover, k - 1);
      var h := Holders(pis, cover[k - 1], 0);
      if |h| == 1 then
        assert h[0] in h;
        EssentialPass(AddUnique(prev.indices, h[0]), prev.covered + (set t | t in pis[h[0]] && t in cover))
      else
        prev
  }

  /** An implicant is essential exactly when it is the sole holder of some
      term to cover. */
  lemma {:induction false} EssentialIndices(pis: seq<Group>, cover: seq<nat>, k: nat)
    requires k <= |cover|
    ensures forall i :: i in EssentialsUpTo(pis, cover, k).indices <==>
              exists j :: 0 <= j < k && SoleHolder(pis, cover[j], i)
    decreases k
  {
    if k > 0 {
      EssentialIndices(pis, cover, k - 1);
      var prev := EssentialsUpTo(pis, cover, k - 1);
      var h := Holders(pis, cover[k - 1], 0);
      forall i ensures i in EssentialsUpTo(pis, cover, k).indices <==>
                       (i in prev.indices || SoleHolder(pis, cover[k - 1], i)) {
        if |h| == 1 {
          assert h == [h[0]];
        }
      }
    }
  }

  /** The covered terms are exactly the terms to cover that lie in an
      essential implicant. */
  lemma {:induction false} EssentialCovered(pis: seq<Group>, cover: seq<nat>, k: nat)
    requires k <= |cover|
    ensures var e := EssentialsUpTo(pis, cover, k);
            forall t :: t in e.covered <==>
              t in cover && exists n :: 0 <= n < |e.indices| && t in pis[e.indices[n]]
    decreases k
  {
    if k > 0 {
      EssentialCovered(pis, cover, k - 1);
      var prev := EssentialsUpTo(pis, cover, k - 1);
      var e := EssentialsUpTo(pis, cover, k);
      var h := Holders(pis, cover[k - 1], 0);
      if |h| == 1 {
        assert h[0] in h;
        var i := h[0];
        assert prev.indices <= e.indices;
        forall t ensures t in e.covered <==>
                         t in cover && exists n :: 0 <= n < |e.indices| && t in pis[e.indices[n]] {
          if t in e.covered {
            if t in prev.covered {
              var n :| 0 <= n < |prev.indices| && t in pis[prev.indices[n]];
              assert e.indices[n] == prev.indices[n];
            } else {
              assert t in pis[i] && t in cover;
              var n :| 0 <= n < |e.indices| && e.indices[n] == i;
            }
          }
          if t in cover && exists n :: 0 <= n < |e.indices| && t in pis[e.indices[n]] {
            var n :| 0 <= n < |e.indices| && t in pis[e.indices[n]];
            if n < |prev.indices| {
              assert e.indices[n] == prev.indices[n];
              assert t in prev.covered;
            } else {
              assert e.indices[n] == i;
            }
          }
        }
      }
    }
  }

  function Essentials(pis: seq<Group>, cover: seq<nat>): EssentialPass {
    EssentialsUpTo(pis, cover, |cover|)
  }

  /** The terms to cover that the essential implicants leave uncovered, in
      their original order (script.js:142). */
  function Uncovered(cover: seq<nat>, covered: set<nat>): (r: seq<nat>)
    ensures forall t :: t in r <==> t in cover && t !in covered
    ensures Distinct(cover) ==> Distinct(r)
    ensures |r| <= |cover|
  {
    if cover == [] then []
    else
      var rest := Uncovered(cover[1..], covered);
      assert Distinct(cover) ==> cover[0] !in cover[1..];
      (if cover[0] in covered then [] else [cover[0]]) + rest
  }

  /** The positions `from` .. `n - 1` that are not essential, ascending:
      the prime implicants left for the greedy pass (script.js:143), held
      by position. */
  function NonEssential(n: nat, essential: seq<nat>, from: nat): (r: seq<nat>)
    ensures forall i :: i in r <==> from <= i < n && i !in essential
    ensures Distinct(r)
    decreases n - from
  {
    if from >= n then []
    else
      var rest := NonEssential(n, essential, from + 1);
      (if from in essential then [] else [from]) + rest
  }

  /** Removes the first occurrence of `t`, if any, from the uncovered
      terms (script.js:155-156). */
  function RemoveFirst(u: seq<nat>, t: nat): (r: seq<nat>)
    ensures |r| == if t in u then |u| - 1 else |u|
    ensures forall x :: x in r ==> x in u
    ensures Distinct(u) ==> Distinct(r) && forall x :: x in r <==> x in u && x != t
  {
    if u == [] then []
    else if u[0] == t then u[1..]
    else
      var rest := RemoveFirst(u[1..], t);
      assert Distinct(u) ==> u[0] !in u[1..];
      [u[0]] + rest
  }

  /** Removes every term of the chosen implicant from the uncovered list
      (script.js:154-157). */
  function RemoveAll(u: seq<nat>, g: Group): (r: seq<nat>)
    ensures |r| <= |u|
    ensures forall x :: x in r ==> x in u
    ensures Distinct(u) ==> Distinct(r) && forall x :: x in r <==> x in u && x !in g
    ensures Distinct(u) && (exists x :: x in g && x in u) ==> |r| < |u|
    decreases |g|
  {
    if g == [] then u
    else
      var u' := RemoveFirst(u, g[0]);
      var r := RemoveAll(u', g[1..]);
      assert Distinct(u) && (exists x :: x in g && x in u) ==> |r| < |u| by {
        if Distinct(u) && g[0] !in u && exists x :: x in g && x in u {
          var x :| x in g && x in u;
          assert x in g[1..] && x in u';
        }
      }
      r
  }

  /** The uncovered list after the greedy pass has removed from `u` the
      terms of the implicants at `picks`, in that order. */
  function Leftover(pis: seq<Group>, u: seq<nat>, picks: seq<nat>): (r: seq<nat>)
    requires IndicesBelow(picks, |pis|)
    ensures |r| <= |u|
    ensures Distinct(u) ==> Distinct(r)
    ensures Distinct(u) ==> forall x :: x in r <==> x in u && forall k :: 0 <= k < |picks| ==> x !in pis[picks[k]]
    decreases |picks|
  {
    if picks == [] then u
    else
      var init := picks[..|picks| - 1];
      var last := picks[|picks| - 1];
      var prev := Leftover(pis, u, init);
      assert forall k :: 0 <= k < |init| ==> init[k] == picks[k];
      RemoveAll(prev, pis[last])
  }

  /** `picked[k]` is the implicant the greedy step of script.js:146-153
      takes after the picks `picked[base..k]`: of all implicants not picked
      before it, it holds the most still-uncovered terms, and among those
      it is one of the shortest. */
  predicate ChosenGreedily(pis: seq<Group>, initial: seq<nat>, base: nat, picked: seq<nat>, k: nat)
    requires IndicesBelow(picked, |pis|) && base <= k < |picked|
  {
    var left := Leftover(pis, initial, picked[base..k]);
    var best := pis[picked[k]];
    && |left| > 0
    && forall i :: 0 <= i < |pis| && i !in picked[..k] ==>
         && Gain(best, left) >= Gain(pis[i], left)
         && (Gain(best, left) == Gain(pis[i], left) ==> |best| <= |pis[i]|)
  }

  /** Every pick after the first `base` ones was made greedily, while some
      term was still uncovered. */
  predicate AllChosenGreedily(pis: seq<Group>, initial: seq<nat>, base: nat, picked: seq<nat>)
    requires IndicesBelow(picked, |pis|)
  {
    forall k :: base <= k < |picked| ==> ChosenGreedily(pis, initial, base, picked, k)
  }

  /** Every term to cover is held by some prime implicant: the situation the
      generator produces, in which the greedy pass always finishes. */
  predicate Covers(pis: seq<Group>, cover: seq<nat>) {
    forall t :: t in cover ==> exists i :: 0 <= i < |pis| && t in pis[i]
  }

  /** The groups at the given positions. */
  function GroupsAt(pis: seq<Group>, idx: seq<nat>): (r: seq<Group>)
    requires IndicesBelow(idx, |pis|)
    ensures |r| == |idx| && forall k :: 0 <= k < |idx| ==> r[k] == pis[idx[k]]
  {
    seq(|idx|, k requires 0 <= k < |idx| => pis[idx[k]])
  }

  /** The state of the greedy loop (script.js:145-158): the positions
      picked so far, `uncoveredTerms` and `remainingPIs`, held by position. */
  datatype Greedy = Greedy(picked: seq<nat>, uncovered: seq<nat>, remaining: seq<nat>)

  /** The picked and the remaining positions split the prime implicants
      between them, and the picked ones start with the essentials. */
  predicate PositionsOk(pis: seq<Group>, ess: EssentialPass, picked: seq<nat>, remaining: seq<nat>) {
    && IndicesBelow(picked, |pis|) && IndicesBelow(remaining, |pis|)
    && Distinct(picked) && Distinct(remaining)
    && (forall i :: 0 <= i < |pis| ==> (i in picked <==> i !in remaining))
    && |ess.indices| <= |picked| && picked[..|ess.indices|] == ess.indices
  }

  /** Every term to cover is either still uncovered or held by a picked
      implicant. */
  predicate TermsOk(pis: seq<Group>, cover: seq<nat>, picked: seq<nat>, uncovered: seq<nat>)
    requires IndicesBelow(picked, |pis|)
  {
    && Distinct(uncovered)
    && (forall t :: t in uncovered ==> t in cover)
    && (forall t :: t in cover && t !in uncovered ==>
          exists k :: 0 <= k < |picked| && t in pis[picked[k]])
  }

  /** When every term to cover has a holder, each uncovered term still has
      a remaining holder, and each greedy pick has removed an uncovered
      term. */
  predicate ProgressOk(pis: seq<Group>, cover: seq<nat>, ess: EssentialPass, initial: seq<nat>, g: Greedy) {
    && (Covers(pis, cover) ==>
          forall t :: t in g.uncovered ==> exists i :: 0 <= i < |pis| && i in g.remaining && t in pis[i])
    && (Covers(pis, cover) ==> |g.picked| + |g.uncovered| <= |ess.indices| + |initial|)
  }

  /** What holds of the greedy loop at every iteration; `initial` is the
      uncovered list the loop started from. */
  predicate GreedyOk(pis: seq<Group>, cover: seq<nat>, ess: EssentialPass, initial: seq<nat>, g: Greedy) {
    && PositionsOk(pis, ess, g.picked, g.remaining)
    && TermsOk(pis, cover, g.picked, g.uncovered)
    && ProgressOk(pis, cover, ess, initial, g)
  }

  /** `selectEssentialImplicants` (script.js:122-161). Besides the selected
      groups it returns `picked`, the prime-implicant positions they come
      from, in the same order. As in the source, the greedy pass appends the
      top-ranked implicant even when it covers no uncovered term; this
      happens only when some term to cover is held by no implicant at all,
      and then every remaining implicant is appended. */
  method SelectEssentialImplicants(pis: seq<Group>, cover: seq<nat>) returns (r: seq<Group>, picked: seq<nat>)
    requires Distinct(cover)
    ensures |cover| == 0 ==> r == [] && picked == []
    ensures |r| == |picked|
    ensures forall k :: 0 <= k < |picked| ==> picked[k] < |pis| && r[k] == pis[picked[k]]
    ensures Distinct(picked) && |picked| <= |pis|
    ensures |Essentials(pis, cover).indices| <= |picked|
    ensures picked[..|Essentials(pis, cover).indices|] == Essentials(pis, cover).indices
    ensures forall m :: m in cover && |Holders(pis, m, 0)| == 1 ==> Holders(pis, m, 0)[0] in picked
    ensures Covers(pis, cover) ==> forall t :: t in cover ==> exists k :: 0 <= k < |r| && t in r[k]
    ensures Covers(pis, cover) ==>
              |picked| <= |Essentials(pis, cover).indices| + |Uncovered(cover, Essentials(pis, cover).covered)|
    ensures var base, initial := |Essentials(pis, cover).indices|, Uncovered(cover, Essentials(pis, cover).covered);
            && IndicesBelow(picked, |pis|) && base <= |picked|
            && AllChosenGreedily(pis, initial, base, picked)
            && (|Leftover(pis, initial, picked[base..])| == 0 || forall i :: 0 <= i < |pis| ==> i in picked)
  {
    if |cover| == 0 {
      return [], [];
    }
    var ess := Essentials(pis, cover);
    var uncovered := Uncovered(cover, ess.covered);
    var remaining := NonEssential(|pis|, ess.indices, 0);
    picked := ess.indices;
    ghost var initial := uncovered;
    SoleHoldersEssential(pis, cover);
    GreedyStart(pis, cover);
    assert picked[|ess.indices|..] == [];
    while |uncovered| > 0
      invariant GreedyOk(pis, cover, ess, initial, Greedy(picked, uncovered, remaining))
      invariant forall m :: m in cover && |Holders(pis, m, 0)| == 1 ==> Holders(pis, m, 0)[0] in picked
      invariant uncovered == Leftover(pis, initial, picked[|ess.indices|..])
      invariant AllChosenGreedily(pis, initial, |ess.indices|, picked)
      decreases |remaining|
    {
      if |remaining| == 0 {
        break;
      }
      var pick := PickBest(pis, uncovered, remaining);
      GreedyChoiceStep(pis, initial, |ess.indices|, picked, remaining, pick);
      GreedyStepOk(pis, cover, ess, initial, Greedy(picked, uncovered, remaining), pick);
      remaining := pick.rest;
      picked := picked + [pick.best];
      uncovered := RemoveAll(uncovered, pis[pick.best]);
    }
    r := GroupsAt(pis, picked);
    DistinctBounded(picked, |pis|);
    if Covers(pis, cover) {
      PickedGroupsCover(pis, cover, picked, r);
    }
  }

  /** Appending the greedy choice for the current uncovered list keeps
      every pick greedy and the uncovered list the leftover of the picks. */
  lemma GreedyChoiceStep(pis: seq<Group>, initial: seq<nat>, base: nat, picked: seq<nat>, remaining: seq<nat>, pick: Pick)
    requires IndicesBelow(picked, |pis|) && base <= |picked|
    requires IndicesBelow(remaining, |pis|) && |remaining| > 0
    requires forall i :: 0 <= i < |pis| ==> (i in picked <==> i !in remaining)
    requires |Leftover(pis, initial, picked[base..])| > 0
    requires pick == PickBest(pis, Leftover(pis, initial, picked[base..]), remaining)
    requires AllChosenGreedily(pis, initial, base, picked)
    ensures IndicesBelow(picked + [pick.best], |pis|)
    ensures RemoveAll(Leftover(pis, initial, picked[base..]), pis[pick.best])
            == Leftover(pis, initial, (picked + [pick.best])[base..])
    ensures AllChosenGreedily(pis, initial, base, picked + [pick.best])
  {
    var next := picked + [pick.best];
    assert IndicesBelow(next, |pis|) by {
      forall k | 0 <= k < |next| ensures next[k] < |pis| {
        if k < |picked| {
          assert next[k] == picked[k];
        }
      }
    }
    assert next[base..][..|next[base..]| - 1] == picked[base..];
    forall k | base <= k < |next| ensures ChosenGreedily(pis, initial, base, next, k) {
      if k == |picked| {
        ChoiceNew(pis, initial, base, picked, remaining, pick);
      } else {
        ChoiceKept(pis, initial, base, picked, pick.best, k);
      }
    }
  }

  /** The implicant `PickBest` takes from the remaining ones is a greedy
      pick after `picked`. */
  lemma ChoiceNew(pis: seq<Group>, initial: seq<nat>, base: nat, picked: seq<nat>, remaining: seq<nat>, pick: Pick)
    requires IndicesBelow(picked, |pis|) && base <= |picked|
    requires IndicesBelow(remaining, |pis|) && |remaining| > 0
    requires forall i :: 0 <= i < |pis| ==> (i in picked <==> i !in remaining)
    requires |Leftover(pis, initial, picked[base..])| > 0
    requires pick == PickBest(pis, Leftover(pis, initial, picked[base..]), remaining)
    ensures IndicesBelow(picked + [pick.best], |pis|)
    ensures ChosenGreedily(pis, initial, base, picked + [pick.best], |picked|)
  {
    var next := picked + [pick.best];
    assert next[base..|picked|] == picked[base..] && next[..|picked|] == picked && next[|picked|] == pick.best;
  }

  /** A greedy pick stays greedy when later picks are appended. */
  lemma ChoiceKept(pis: seq<Group>, initial: seq<nat>, base: nat, picked: seq<nat>, b: nat, k: nat)
    requires IndicesBelow(picked, |pis|) && b < |pis| && base <= k < |picked|
    requires ChosenGreedily(pis, initial, base, picked, k)
    ensures IndicesBelow(picked + [b], |pis|)
    ensures ChosenGreedily(pis, initial, base, picked + [b], k)
  {
    var next := picked + [b];
    assert next[base..k] == picked[base..k] && next[..k] == picked[..k] && next[k] == picked[k];
  }

  /** Every sole holder of a term to cover is essential. */
  lemma SoleHoldersEssential(pis: seq<Group>, cover: seq<nat>)
    requires Distinct(cover)
    ensures forall m :: m in cover && |Holders(pis, m, 0)| == 1 ==>
              Holders(pis, m, 0)[0] in Essentials(pis, cover).indices
  {
    EssentialIndices(pis, cover, |cover|);
    forall m | m in cover && |Holders(pis, m, 0)| == 1
      ensures Holders(pis, m, 0)[0] in Essentials(pis, cover).indices
    {
      var h := Holders(pis, m, 0);
      assert h[0] in h;
      var j :| 0 <= j < |cover| && cover[j] == m;
      assert SoleHolder(pis, cover[j], h[0]);
    }
  }

  /** The groups at the picked positions hold every term some picked
      implicant holds. */
  lemma PickedGroupsCover(pis: seq<Group>, cover: seq<nat>, picked: seq<nat>, r: seq<Group>)
    requires |r| == |picked|
    requires forall k :: 0 <= k < |picked| ==> picked[k] < |pis| && r[k] == pis[picked[k]]
    requires forall t :: t in cover ==> exists k :: 0 <= k < |picked| && t in pis[picked[k]]
    ensures forall t :: t in cover ==> exists k :: 0 <= k < |r| && t in r[k]
  {
    forall t | t in cover ensures exists k :: 0 <= k < |r| && t in r[k] {
      var k :| 0 <= k < |picked| && t in pis[picked[k]];
      assert t in r[k];
    }
  }

  /** The greedy loop starts from a state that satisfies `GreedyOk`. */
  lemma GreedyStart(pis: seq<Group>, cover: seq<nat>)
    requires Distinct(cover)
    ensures var ess := Essentials(pis, cover);
            var uncovered := Uncovered(cover, ess.covered);
            GreedyOk(pis, cover, ess, uncovered, Greedy(ess.indices, uncovered, NonEssential(|pis|, ess.indices, 0)))
  {
    var ess := Essentials(pis, cover);
    var uncovered := Uncovered(cover, ess.covered);
    var remaining := NonEssential(|pis|, ess.indices, 0);
    var g := Greedy(ess.indices, uncovered, remaining);
    assert PositionsOk(pis, ess, g.picked, g.remaining) by {
      assert IndicesBelow(remaining, |pis|) by {
        forall k | 0 <= k < |remaining| ensures remaining[k] < |pis| {
          assert remaining[k] in remaining;
        }
      }
      assert ess.indices[..|ess.indices|] == ess.indices;
    }
    EssentialCovered(pis, cover, |cover|);
    assert TermsOk(pis, cover, g.picked, g.uncovered) by {
      CoveredByEssentials(pis, cover, ess, uncovered);
    }
    assert ProgressOk(pis, cover, ess, uncovered, g) by {
      HoldersRemain(pis, cover, ess, uncovered, remaining);
    }
  }

  /** One iteration of the greedy loop keeps `GreedyOk` and shortens the
      remaining list. */
  lemma GreedyStepOk(pis: seq<Group>, cover: seq<nat>, ess: EssentialPass, initial: seq<nat>, g: Greedy, pick: Pick)
    requires GreedyOk(pis, cover, ess, initial, g)
    requires |g.uncovered| > 0 && |g.remaining| > 0
    requires pick == PickBest(pis, g.uncovered, g.remaining)
    ensures GreedyOk(pis, cover, ess, initial,
                     Greedy(g.picked + [pick.best], RemoveAll(g.uncovered, pis[pick.best]), pick.rest))
    ensures |pick.rest| < |g.remaining|
  {
    PickLeavesRest(pis, g.uncovered, g.remaining, pick);
    StepPositions(pis, ess, g.picked, g.remaining, pick);
    StepTerms(pis, cover, g.picked, g.uncovered, pick.best);
    if Covers(pis, cover) {
      GreedyShrinks(pis, cover, g.uncovered, g.remaining, pick);
      GreedyKeepsHolders(pis, g.uncovered, g.remaining, pick);
    }
  }

  lemma StepPositions(pis: seq<Group>, ess: EssentialPass, picked: seq<nat>, remaining: seq<nat>, pick: Pick)
    requires PositionsOk(pis, ess, picked, remaining)
    requires pick.best < |pis| && pick.best in remaining
    requires Distinct(pick.rest) && IndicesBelow(pick.rest, |pis|) && pick.best !in pick.rest
    requires forall i :: i in remaining <==> i == pick.best || i in pick.rest
    ensures PositionsOk(pis, ess, picked + [pick.best], pick.rest)
  {
  }

  lemma StepTerms(pis: seq<Group>, cover: seq<nat>, picked: seq<nat>, uncovered: seq<nat>, best: nat)
    requires IndicesBelow(picked, |pis|) && best < |pis|
    requires TermsOk(pis, cover, picked, uncovered)
    ensures IndicesBelow(picked + [best], |pis|)
    ensures TermsOk(pis, cover, picked + [best], RemoveAll(uncovered, pis[best]))
  {
    var next := picked + [best];
    var after := RemoveAll(uncovered, pis[best]);
    assert IndicesBelow(next, |pis|) by {
      forall k | 0 <= k < |next| ensures next[k] < |pis| {
        if k < |picked| {
          assert next[k] == picked[k];
        }
      }
    }
    forall t | t in cover && t !in after
      ensures exists k :: 0 <= k < |next| && t in pis[next[k]]
    {
      if t in uncovered {
        assert t in pis[best] && next[|picked|] == best;
      } else {
        var k :| 0 <= k < |picked| && t in pis[picked[k]];
        assert next[k] == picked[k];
      }
    }
  }

  /** Right after the essential pass, every uncovered term that some
      implicant holds is held by a non-essential one. */
  lemma HoldersRemain(pis: seq<Group>, cover: seq<nat>, ess: EssentialPass, uncovered: seq<nat>, remaining: seq<nat>)
    requires IndicesBelow(ess.indices, |pis|)
    requires forall t :: t in ess.covered <==>
               t in cover && exists n :: 0 <= n < |ess.indices| && t in pis[ess.indices[n]]
    requires forall t :: t in uncovered <==> t in cover && t !in ess.covered
    requires forall i :: i in remaining <==> 0 <= i < |pis| && i !in ess.indices
    ensures Covers(pis, cover) ==> forall t :: t in uncovered ==> exists i :: 0 <= i < |pis| && i in remaining && t in pis[i]
  {
  }

  /** Right after the essential pass, every term to cover that is not left
      uncovered lies in an essential implicant. */
  lemma CoveredByEssentials(pis: seq<Group>, cover: seq<nat>, ess: EssentialPass, uncovered: seq<nat>)
    requires IndicesBelow(ess.indices, |pis|)
    requires forall t :: t in ess.covered <==>
               t in cover && exists n :: 0 <= n < |ess.indices| && t in pis[ess.indices[n]]
    requires forall t :: t in uncovered <==> t in cover && t !in ess.covered
    ensures forall t :: t in cover && t !in uncovered ==>
              exists k :: 0 <= k < |ess.indices| && t in pis[ess.indices[k]]
  {
  }

  /** The chosen implicant leaves the remaining list and nothing else does. */
  lemma PickLeavesRest(pis: seq<Group>, uncovered: seq<nat>, remaining: seq<nat>, pick: Pick)
    requires |remaining| > 0 && IndicesBelow(remaining, |pis|) && Distinct(remaining)
    requires pick == PickBest(pis, uncovered, remaining)
    ensures Distinct(pick.rest) && IndicesBelow(pick.rest, |pis|)
    ensures pick.best !in pick.rest
    ensures forall i :: i in remaining <==> i == pick.best || i in pick.rest
    ensures |pick.rest| == |remaining| - 1
  {
    var best, rest := pick.best, pick.rest;
    assert multiset(rest) + multiset{best} == multiset(remaining);
    forall i ensures i in remaining <==> i == best || i in rest {
      assert i in remaining <==> i in multiset(remaining);
      assert i in rest <==> i in multiset(rest);
    }
    DistinctCount(remaining, best);
    assert multiset(rest)[best] == 0;
    forall x | x in rest ensures multiset(rest)[x] == 1 {
      DistinctCount(remaining, x);
    }
    MultisetDistinct(rest);
    assert |multiset(rest)| + 1 == |multiset(remaining)|;
  }

  /** Under `Covers`, the chosen implicant holds an uncovered term, so the
      uncovered list shrinks. */
  lemma GreedyShrinks(pis: seq<Group>, cover: seq<nat>, uncovered: seq<nat>, remaining: seq<nat>, pick: Pick)
    requires |remaining| > 0 && IndicesBelow(remaining, |pis|)
    requires Distinct(uncovered) && |uncovered| > 0
    requires pick.best < |pis|
    requires forall i :: i in remaining ==> Gain(pis[pick.best], uncovered) >= Gain(pis[i], uncovered)
    requires forall t :: t in uncovered ==> exists i :: 0 <= i < |pis| && i in remaining && t in pis[i]
    ensures |RemoveAll(uncovered, pis[pick.best])| < |uncovered|
  {
    var t := uncovered[0];
    assert t in uncovered;
    var i :| 0 <= i < |pis| && i in remaining && t in pis[i];
    var g := pis[pick.best];
    assert Gain(pis[i], uncovered) > 0;
    assert Gain(g, uncovered) > 0;
    var x :| x in g && x in uncovered;
  }

  /** Every term still uncovered after a greedy step is held by an
      implicant that is still remaining. */
  lemma GreedyKeepsHolders(pis: seq<Group>, uncovered: seq<nat>, remaining: seq<nat>, pick: Pick)
    requires pick.best < |pis|
    requires Distinct(uncovered)
    requires forall i :: i in remaining <==> i == pick.best || i in pick.rest
    requires forall t :: t in uncovered ==> exists i :: 0 <= i < |pis| && i in remaining && t in pis[i]
    ensures forall t :: t in RemoveAll(uncovered, pis[pick.best]) ==> exists i :: 0 <= i < |pis| && i in pick.rest && t in pis[i]
  {
  }

  /** A sequence whose multiset holds every element once is duplicate-free. */
  lemma {:induction false} MultisetDistinct(s: seq<nat>)
    requires forall x :: x in s ==> multiset(s)[x] == 1
    ensures Distinct(s)
    decreases |s|
  {
    if s != [] {
      var tail := s[1..];
      assert s == [s[0]] + tail;
      assert multiset(s) == multiset{s[0]} + multiset(tail);
      assert multiset(s)[s[0]] == 1;
      assert multiset(tail)[s[0]] == 0;
      forall x | x in tail ensures multiset(tail)[x] == 1 {
        assert multiset(tail)[x] > 0;
        assert x != s[0];
        assert x in s;
      }
      MultisetDistinct(tail);
    }
  }
}

=== FILE: groups.dfy ===
/** Groups of terms: ascending, duplicate-free sequences. Two groups are the
    same implicant exactly when they are equal as sequences, which stands in
    for the `JSON.stringify` identity of script.js. */
module Groups {
  import opened Seqs

  type Group = seq<nat>

  predicate StrictlySorted(g: Group) {
    forall i, j :: 0 <= i < j < |g| ==> g[i] < g[j]
  }

  /** Every element of `g` is an element of `h`. */
  predicate Within(g: Group, h: Group) {
    forall x :: x in g ==> x in h
  }

  /** Every element of `g` lies in the set `terms`. */
  predicate DrawnFrom(g: Group, terms: set<nat>) {
    forall x :: x in g ==> x in terms
  }

  /** Inserts `x` at its place in an ascending group, unless present. */
  function InsertSorted(x: nat, g: Group): (r: Group)
    requires StrictlySorted(g)
    ensures StrictlySorted(r)
    ensures forall y :: y in r <==> y in g || y == x
    decreases |g|
  {
    if g == [] then [x]
    else if x == g[0] then g
    else if x < g[0] then [x] + g
    else
      var rest := InsertSorted(x, g[1..]);
      assert forall k :: 0 <= k < |g[1..]| ==> g[0] < g[1..][k];
      assert forall k :: 0 <= k < |rest| ==> g[0] < rest[k] by {
        forall k | 0 <= k < |rest| ensures g[0] < rest[k] {
          assert rest[k] in rest;
        }
      }
      [g[0]] + rest
  }

  function InsertAll(acc: Group, xs: seq<nat>): (r: Group)
    requires StrictlySorted(acc)
    ensures StrictlySorted(r)
    ensures forall y :: y in r <==> y in acc || y in xs
    decreases |xs|
  {
    if xs == [] then acc else InsertAll(InsertSorted(xs[0], acc), xs[1..])
  }

  /** The merged group of script.js:108: the ascending, duplicate-free
      sequence of the terms of both groups.
      `SortedUnique` shows that this pins the value down completely. */
  function SortedUnion(g1: Group, g2: Group): (r: Group)
    ensures StrictlySorted(r)
    ensures forall y :: y in r <==> y in g1 || y in g2
  {
    InsertAll([], g1 + g2)
  }

  /** An ascending duplicate-free sequence is determined by its elements. */
  lemma {:induction false} SortedUnique(a: Group, b: Group)
    requires StrictlySorted(a) && StrictlySorted(b)
    requires forall x :: x in a <==> x in b
    ensures a == b
    decreases |a|
  {
    if a != [] && b != [] {
      assert a[0] == b[0] by {
        assert a[0] in b;
        assert b[0] in a;
      }
      forall x ensures x in a[1..] <==> x in b[1..] {
        if x in a[1..] {
          assert x in b && x != b[0];
        }
        if x in b[1..] {
          assert x in a && x != a[0];
        }
      }
      SortedUnique(a[1..], b[1..]);
      assert a == [a[0]] + a[1..] && b == [b[0]] + b[1..];
    } else {
      NoElements(a);
      NoElements(b);
    }
  }

  lemma NoElements(s: Group)
    ensures (forall x :: x !in s) ==> s == []
  {
    if s != [] {
      assert s[0] in s;
    }
  }

  lemma SortedDistinct(g: Group)
    requires StrictlySorted(g)
    ensures Distinct(g)
  {
  }

  /** A group drawn from `terms` has at most `|terms|` elements. */
  lemma SortedLength(g: Group, terms: set<nat>)
    requires StrictlySorted(g) && DrawnFrom(g, terms)
    ensures |g| <= |terms|
  {
    DistinctCard(g);
    assert Elems(g) <= terms;
    SubsetCard(Elems(g), terms);
  }
}

=== FILE: implicants.dfy ===
/** Prime-implicant generation, `findPrimeImplicants` (script.js:88-120):
    a fixed-point loop that merges pairs of equal-length groups whose
    position-wise XORs are one common power of two, promotes every group
    that took part in no merge, and stops after a level without a merge. */
module Implicants {
  import opened Seqs
  import opened Bits
  import opened Groups

  /** The merge test of script.js:100-104, as the code computes it: equal
      lengths, every position-wise XOR equal to the first one, and the first
      one passing the bit trick. An empty group never merges (its first
      XOR is `undefined`, which is not `> 0`). */
  predicate Combinable(g1: Group, g2: Group) {
    && |g1| == |g2|
    && |g1| > 0
    && (forall idx :: 0 <= idx < |g1| ==> Xor(g1[idx], g2[idx]) == Xor(g1[0], g2[0]))
    && PowerOfTwoTest(Xor(g1[0], g2[0]))
  }

  /** Two groups merge exactly when they have the same non-zero length and
      all their position-wise XORs are one and the same power of two. */
  lemma CombinableMeaning(g1: Group, g2: Group)
    ensures Combinable(g1, g2) <==>
              && |g1| == |g2| && |g1| > 0
              && exists k: nat :: forall idx :: 0 <= idx < |g1| ==> Xor(g1[idx], g2[idx]) == Pow2(k)
  {
    if |g1| == |g2| && |g1| > 0 {
      var d := Xor(g1[0], g2[0]);
      PowerOfTwoTestCorrect(d);
      if Combinable(g1, g2) {
        var k: nat :| Pow2(k) == d;
        assert forall idx :: 0 <= idx < |g1| ==> Xor(g1[idx], g2[idx]) == Pow2(k);
      }
      if exists k: nat :: forall idx :: 0 <= idx < |g1| ==> Xor(g1[idx], g2[idx]) == Pow2(k) {
        var k: nat :| forall idx :: 0 <= idx < |g1| ==> Xor(g1[idx], g2[idx]) == Pow2(k);
        assert Xor(g1[0], g2[0]) == Pow2(k);
      }
    }
  }

  /** A group never merges with itself: its XORs are all zero. */
  lemma CombinableIrreflexive(g: Group)
    ensures !Combinable(g, g)
  {
    if |g| > 0 {
      XorSelf(g[0]);
    }
  }

  /** The merge test does not depend on the order of the pair. */
  lemma CombinableSymmetric(g1: Group, g2: Group)
    ensures Combinable(g1, g2) <==> Combinable(g2, g1)
  {
    if |g1| == |g2| {
      forall idx | 0 <= idx < |g1| {
        XorComm(g1[idx], g2[idx]);
      }
    }
  }

  /** Two mergeable ascending groups share no term. A shared term would
      make two positions swap their values between the groups, which the
      ascending order forbids. */
  lemma CombinableDisjoint(g1: Group, g2: Group)
    requires StrictlySorted(g1) && StrictlySorted(g2)
    requires Combinable(g1, g2)
    ensures forall x :: x in g1 ==> x !in g2
  {
    var d := Xor(g1[0], g2[0]);
    forall x | x in g1 ensures x !in g2 {
      if x in g2 {
        var i :| 0 <= i < |g1| && g1[i] == x;
        var j :| 0 <= j < |g2| && g2[j] == x;
        assert Xor(x, g2[i]) == d && Xor(g1[j], x) == d;
        XorComm(g1[j], x);
        XorCancel(x, g1[j], g2[i]);
        if i == j {
          XorSelf(x);
        }
      }
    }
  }

  /** Merging two mergeable ascending groups doubles their length. This is
      what makes the fixed-point loop terminate. */
  lemma MergeDoubles(g1: Group, g2: Group)
    requires StrictlySorted(g1) && StrictlySorted(g2)
    requires Combinable(g1, g2)
    ensures |SortedUnion(g1, g2)| == 2 * |g1|
  {
    CombinableDisjoint(g1, g2);
    var u := SortedUnion(g1, g2);
    assert Elems(u) == Elems(g1) + Elems(g2);
    assert Elems(g1) !! Elems(g2);
    DistinctCard(g1);
    DistinctCard(g2);
    DistinctCard(u);
  }

  /** `g` is an implicant the loop can build from `terms`: a single term,
      or the merged group of a mergeable pair of smaller such implicants. */
  ghost predicate Built(g: Group, terms: set<nat>)
    decreases |g|
  {
    || (|g| == 1 && g[0] in terms)
    || exists a, b :: |a| < |g| && |b| < |g| && Built(a, terms) && Built(b, terms)
                      && Combinable(a, b) && g == SortedUnion(a, b)
  }

  /** Every group of `gs` is built from `terms`. */
  ghost predicate AllBuilt(gs: seq<Group>, terms: set<nat>) {
    forall g :: g in gs ==> Built(g, terms)
  }

  /** A built implicant is an ascending group of input terms whose size is
      a power of two. */
  lemma {:induction false} BuiltShape(g: Group, terms: set<nat>)
    requires Built(g, terms)
    ensures StrictlySorted(g) && DrawnFrom(g, terms)
    ensures exists k: nat :: |g| == Pow2(k)
    decreases |g|
  {
    if |g| == 1 && g[0] in terms {
      assert |g| == Pow2(0);
    } else {
      var a, b :| |a| < |g| && |b| < |g| && Built(a, terms) && Built(b, terms)
                  && Combinable(a, b) && g == SortedUnion(a, b);
      BuiltShape(a, terms);
      BuiltShape(b, terms);
      MergeDoubles(a, b);
      var k: nat :| |a| == Pow2(k);
      assert |g| == Pow2(k + 1);
    }
  }

  /** A prime implicant of `terms`: a built implicant that merges with no
      built implicant. */
  ghost predicate Prime(p: Group, terms: set<nat>) {
    Built(p, terms) && forall q :: Built(q, terms) ==> !Combinable(p, q)
  }

  /** `groups` holds exactly the built implicants of `len` terms. */
  ghost predicate LevelExact(groups: seq<Group>, terms: set<nat>, len: nat) {
    forall g :: g in groups <==> Built(g, terms) && |g| == len
  }

  /** `primes` holds exactly the prime implicants of fewer than `len` terms. */
  ghost predicate PrimesBelow(primes: seq<Group>, terms: set<nat>, len: nat) {
    forall p :: p in primes <==> Prime(p, terms) && |p| < len
  }

  /** A built implicant of at least `2^j` terms is made from built
      implicants of every smaller power-of-two size down to `2^j`; in
      particular one of exactly `2^j` terms exists. */
  lemma {:induction false} BuiltReaches(g: Group, terms: set<nat>, j: nat)
    requires Built(g, terms) && |g| >= Pow2(j)
    ensures exists h :: Built(h, terms) && |h| == Pow2(j)
    decreases |g|
  {
    BuiltShape(g, terms);
    var k: nat :| |g| == Pow2(k);
    PowerAbove(|g|, k, j);
    if |g| != Pow2(j) {
      BuiltSplit(g, terms);
      var a, b :| BuiltPair(g, a, b, terms);
      BuiltReaches(a, terms, j);
    }
  }

  /** `g` is the merged group of the mergeable built implicants `a` and
      `b`, each of half its size. */
  ghost predicate BuiltPair(g: Group, a: Group, b: Group, terms: set<nat>) {
    && Built(a, terms) && Built(b, terms) && Combinable(a, b)
    && g == SortedUnion(a, b) && |a| == |b| && |g| == 2 * |a|
  }

  /** A built implicant of more than one term splits into a mergeable pair
      of built implicants of half its size. */
  lemma BuiltSplit(g: Group, terms: set<nat>)
    requires Built(g, terms) && |g| > 1
    ensures exists a, b :: BuiltPair(g, a, b, terms)
  {
    var a, b :| |a| < |g| && |b| < |g| && Built(a, terms) && Built(b, terms)
                && Combinable(a, b) && g == SortedUnion(a, b);
    BuiltShape(a, terms);
    BuiltShape(b, terms);
    MergeDoubles(a, b);
    assert BuiltPair(g, a, b, terms);
  }

  /** Powers of two strictly above `2^j` are at least `2^(j+1)`. */
  lemma SizesApart(j: nat, k: nat)
    requires Pow2(j) < Pow2(k)
    ensures 2 * Pow2(j) <= Pow2(k)
  {
    Pow2Order(j, k);
    Pow2Order(k, j);
  }

  /** A power of two at least `2^j` is `2^j` itself, or its half is still
      at least `2^j`. */
  lemma PowerAbove(n: nat, k: nat, j: nat)
    requires n == Pow2(k) && n >= Pow2(j)
    ensures n == Pow2(j) || (n % 2 == 0 && n / 2 >= Pow2(j))
  {
    Pow2Order(k, j);
    if k > j {
      Pow2Order(j, k - 1);
    }
  }

  /** Without any built implicant of `2^j` terms, every built implicant is
      shorter than that. */
  lemma NoneAtLeast(terms: set<nat>, j: nat)
    requires forall h :: Built(h, terms) ==> |h| != Pow2(j)
    ensures forall g :: Built(g, terms) ==> |g| < Pow2(j)
  {
    forall g | Built(g, terms) ensures |g| < Pow2(j) {
      if |g| >= Pow2(j) {
        BuiltReaches(g, terms, j);
      }
    }
  }

  /** After a full scan of the built implicants of `len` terms, the next
      level holds exactly the built implicants of `2 * len` terms: each of
      them is the union of a mergeable pair of the level. */
  lemma NextExact(groups: seq<Group>, level: Level, terms: set<nat>, len: nat)
    requires 1 <= len && LevelExact(groups, terms, len)
    requires AllBuilt(level.next, terms) && Sized(level.next, 2 * len)
    requires forall a, b :: 0 <= a < b < |groups| && Combinable(groups[a], groups[b]) ==>
               Merged(level, groups[a], groups[b])
    ensures LevelExact(level.next, terms, 2 * len)
  {
    forall g | Built(g, terms) && |g| == 2 * len ensures g in level.next {
      BuiltSplit(g, terms);
      var a, b :| BuiltPair(g, a, b, terms);
      assert a in groups && b in groups;
      PairMerged(groups, level, a, b);
    }
  }

  /** After a full scan, the union of any mergeable pair of the level's
      groups is recorded, whichever of the two comes first. */
  lemma PairMerged(groups: seq<Group>, level: Level, a: Group, b: Group)
    requires a in groups && b in groups && Combinable(a, b)
    requires forall x, y :: 0 <= x < y < |groups| && Combinable(groups[x], groups[y]) ==>
               Merged(level, groups[x], groups[y])
    ensures SortedUnion(a, b) in level.next
  {
    var ia :| 0 <= ia < |groups| && groups[ia] == a;
    var ib :| 0 <= ib < |groups| && groups[ib] == b;
    CombinableIrreflexive(a);
    CombinableSymmetric(a, b);
    if ib < ia {
      assert Merged(level, b, a);
      SortedUnique(SortedUnion(b, a), SortedUnion(a, b));
    } else {
      assert Merged(level, a, b);
    }
  }

  /** The promotions after a full scan of the built implicants of `len`
      terms are exactly the prime implicants of fewer than `2 * len` terms. */
  lemma PromotedPrimes(groups: seq<Group>, level: Level, primes: seq<Group>, terms: set<nat>, j: nat)
    requires LevelExact(groups, terms, Pow2(j)) && PrimesBelow(primes, terms, Pow2(j))
    requires forall g :: g in level.used ==> InMergeablePair(g, groups)
    requires forall a, b :: 0 <= a < b < |groups| && Combinable(groups[a], groups[b]) ==>
               Merged(level, groups[a], groups[b])
    ensures PrimesBelow(primes + Unused(groups, level.used), terms, 2 * Pow2(j))
  {
    var len := Pow2(j);
    var promoted := primes + Unused(groups, level.used);
    PromotedExactly(groups, level);
    forall p ensures p in promoted <==> Prime(p, terms) && |p| < 2 * len {
      if p in Unused(groups, level.used) {
        forall q | Built(q, terms) ensures !Combinable(p, q) {
          if |q| == len {
            assert q in groups;
          }
        }
      }
      if Prime(p, terms) && |p| < 2 * len && p !in primes {
        BuiltShape(p, terms);
        var k: nat :| |p| == Pow2(k);
        if |p| > len {
          SizesApart(j, k);
        }
        assert |p| == len;
        assert p in groups;
      }
    }
  }

  /** Some group of `gs` holds the term `t`. */
  predicate Held(t: nat, gs: seq<Group>) {
    exists g :: g in gs && t in g
  }

  /** Every group is ascending, non-empty and drawn from `terms`. */
  predicate GroupsOk(gs: seq<Group>, terms: set<nat>) {
    forall g :: g in gs ==> StrictlySorted(g) && |g| > 0 && DrawnFrom(g, terms)
  }

  /** Every group has exactly `len` terms. */
  predicate Sized(gs: seq<Group>, len: nat) {
    forall g :: g in gs ==> |g| == len
  }

  /** Every group has fewer than `len` terms. */
  predicate Shorter(gs: seq<Group>, len: nat) {
    forall g :: g in gs ==> |g| < len
  }

  /** No two groups of `gs` can be merged. */
  predicate NoMerges(gs: seq<Group>) {
    forall p, q :: p in gs && q in gs ==> !Combinable(p, q)
  }

  /** `c` is the sorted union of a mergeable pair of `groups`. */
  predicate MergedFrom(c: Group, groups: seq<Group>) {
    exists a, b :: 0 <= a < b < |groups| && Combinable(groups[a], groups[b])
                   && c == SortedUnion(groups[a], groups[b])
  }

  /** `g` is one side of a mergeable pair of `groups`. */
  predicate InMergeablePair(g: Group, groups: seq<Group>) {
    exists a, b :: 0 <= a < b < |groups| && Combinable(groups[a], groups[b])
                   && (g == groups[a] || g == groups[b])
  }

  /** The state of one level of the loop: `usedInNextLevel`, the values of
      `nextGroupsMap` in insertion order, and `madeCombination`. */
  datatype Level = Level(used: set<Group>, next: seq<Group>, made: bool)

  /** What holds of a level of `len`-term groups while its pairs are being
      scanned: a used group took part in a mergeable pair and lies inside a
      merged one, a merged group is the union of a mergeable pair and has
      `2 * len` terms. */
  predicate LevelOk(lv: Level, groups: seq<Group>, terms: set<nat>, len: nat) {
    && (forall g :: g in lv.used ==> g in groups && exists c :: c in lv.next && Within(g, c))
    && (forall g :: g in lv.used ==> InMergeablePair(g, groups))
    && (forall c :: c in lv.next ==> MergedFrom(c, groups))
    && GroupsOk(lv.next, terms)
    && Sized(lv.next, 2 * len)
    && Distinct(lv.next)
    && (lv.made <==> |lv.next| > 0)
  }

  /** The pair was marked used and its union recorded for the next level. */
  predicate Merged(lv: Level, g1: Group, g2: Group) {
    g1 in lv.used && g2 in lv.used && SortedUnion(g1, g2) in lv.next
  }

  /** Every mergeable pair `a < b` scanned before the pair `(i, j)` is merged. */
  predicate MergesDone(lv: Level, groups: seq<Group>, i: nat, j: nat) {
    forall a, b ::
      (0 <= a < b < |groups| && (a < i || (a == i && b < j)) && Combinable(groups[a], groups[b]))
      ==> Merged(lv, groups[a], groups[b])
  }

  /** The body of the inner loop for the pair (g1, g2), script.js:98-110. */
  function Step(lv: Level, g1: Group, g2: Group): (r: Level)
    ensures Combinable(g1, g2) ==> Merged(r, g1, g2) && r.made
    ensures lv.used <= r.used && forall c :: c in lv.next ==> c in r.next
    ensures r.used <= lv.used + {g1, g2}
    ensures forall c :: c in r.next ==> c in lv.next || c == SortedUnion(g1, g2)
    ensures !Combinable(g1, g2) ==> r == lv
  {
    if Combinable(g1, g2) then
      Level(lv.used + {g1, g2}, AddUnique(lv.next, SortedUnion(g1, g2)), true)
    else lv
  }

  /** The nested loops over pairs i < j (script.js:96-112), from pair (i, j).
      Every mergeable pair of the level ends up merged. */
  function Scan(groups: seq<Group>, i: nat, j: nat, lv: Level, ghost terms: set<nat>, ghost len: nat): (r: Level)
    requires GroupsOk(groups, terms) && Sized(groups, len)
    requires LevelOk(lv, groups, terms, len)
    requires MergesDone(lv, groups, i, j)
    requires i < j
    ensures LevelOk(r, groups, terms, len)
    ensures forall a, b :: 0 <= a < b < |groups| && Combinable(groups[a], groups[b]) ==>
              Merged(r, groups[a], groups[b])
    ensures lv.made ==> r.made
    decreases |groups| - i, |groups| - j
  {
    if i >= |groups| then lv
    else if j >= |groups| then
      assert MergesDone(lv, groups, i + 1, i + 2);
      Scan(groups, i + 1, i + 2, lv, terms, len)
    else
      StepOk(lv, groups, i, j, terms, len);
      StepDone(lv, groups, i, j);
      Scan(groups, i, j + 1, Step(lv, groups[i], groups[j]), terms, len)
  }

  lemma StepOk(lv: Level, groups: seq<Group>, i: nat, j: nat, terms: set<nat>, len: nat)
    requires GroupsOk(groups, terms) && Sized(groups, len)
    requires LevelOk(lv, groups, terms, len)
    requires i < j < |groups|
    ensures LevelOk(Step(lv, groups[i], groups[j]), groups, terms, len)
    ensures lv.made ==> Step(lv, groups[i], groups[j]).made
  {
    var g1, g2 := groups[i], groups[j];
    if Combinable(g1, g2) {
      var c := SortedUnion(g1, g2);
      MergeDoubles(g1, g2);
      assert MergedFrom(c, groups);
      assert DrawnFrom(c, terms);
      NextAfterStep(lv, c, groups, terms, len);
      assert InMergeablePair(g1, groups) && InMergeablePair(g2, groups);
      UsedAfterStep(lv, g1, g2, c, groups);
    }
  }

  /** Recording a new merged group keeps the facts about the next level. */
  lemma NextAfterStep(lv: Level, c: Group, groups: seq<Group>, terms: set<nat>, len: nat)
    requires forall x :: x in lv.next ==> MergedFrom(x, groups)
    requires GroupsOk(lv.next, terms) && Sized(lv.next, 2 * len) && Distinct(lv.next)
    requires MergedFrom(c, groups) && StrictlySorted(c) && 0 < |c| == 2 * len && DrawnFrom(c, terms)
    ensures var next := AddUnique(lv.next, c);
            && (forall x :: x in next ==> MergedFrom(x, groups))
            && GroupsOk(next, terms) && Sized(next, 2 * len) && Distinct(next)
            && c in next && |next| > 0
  {
    var next := AddUnique(lv.next, c);
    assert forall x :: x in next ==> x in lv.next || x == c;
  }

  /** Marking a merged pair used keeps every used group inside a merged one. */
  lemma UsedAfterStep(lv: Level, g1: Group, g2: Group, c: Group, groups: seq<Group>)
    requires forall g :: g in lv.used ==> g in groups && exists c :: c in lv.next && Within(g, c)
    requires forall g :: g in lv.used ==> InMergeablePair(g, groups)
    requires g1 in groups && g2 in groups && Within(g1, c) && Within(g2, c)
    requires InMergeablePair(g1, groups) && InMergeablePair(g2, groups)
    ensures var nx := Level(lv.used + {g1, g2}, AddUnique(lv.next, c), true);
            && (forall g :: g in nx.used ==> g in groups && exists c' :: c' in nx.next && Within(g, c'))
            && (forall g :: g in nx.used ==> InMergeablePair(g, groups))
  {
    var nx := Level(lv.used + {g1, g2}, AddUnique(lv.next, c), true);
    assert c in nx.next;
    forall g | g in nx.used ensures g in groups && exists c' :: c' in nx.next && Within(g, c') {
      if g in lv.used {
        var c' :| c' in lv.next && Within(g, c');
        assert c' in nx.next;
      }
    }
  }

  /** A step keeps the earlier merges and merges the pair (i, j) if it can. */
  lemma StepDone(lv: Level, groups: seq<Group>, i: nat, j: nat)
    requires i < j < |groups|
    requires MergesDone(lv, groups, i, j)
    ensures MergesDone(Step(lv, groups[i], groups[j]), groups, i, j + 1)
  {
  }

  /** The groups of a level that took part in no merge, in order
      (script.js:113-115). */
  function Unused(groups: seq<Group>, used: set<Group>): (r: seq<Group>)
    ensures forall g :: g in r <==> g in groups && g !in used
  {
    if groups == [] then []
    else (if groups[0] in used then [] else [groups[0]]) + Unused(groups[1..], used)
  }

  /** Every term of `terms` lies in some group of `gs`. */
  predicate HoldsAll(terms: set<nat>, gs: seq<Group>) {
    forall t :: t in terms ==> Held(t, gs)
  }

  /** The `while (groups.length > 0)` loop of script.js:92-118: `primes`
      is the list of promoted groups so far. `terms` and `len` are proof
      bookkeeping: every group is drawn from `terms`, and every group of the
      current level has exactly `len` terms, which doubles per level, so the
      loop ends once `len` would pass `|terms|`. Earlier promotions are
      shorter than `len`, so groups of different levels never merge, and
      no two promoted groups can be merged. */
  function Generate(groups: seq<Group>, primes: seq<Group>, ghost terms: set<nat>, ghost len: nat): (r: seq<Group>)
    requires 1 <= len
    requires GroupsOk(groups, terms) && Sized(groups, len)
    requires GroupsOk(primes, terms) && Shorter(primes, len)
    requires AllBuilt(groups, terms) && AllBuilt(primes, terms)
    requires exists j: nat :: len == Pow2(j)
    requires LevelExact(groups, terms, len) && PrimesBelow(primes, terms, len)
    ensures GroupsOk(r, terms)
    ensures AllBuilt(r, terms)
    ensures forall p :: p in r <==> Prime(p, terms)
    ensures HoldsAll(terms, primes + groups) ==> HoldsAll(terms, r)
    ensures forall p :: p in primes ==> p in r
    ensures NoMerges(primes) ==> NoMerges(r)
    decreases |terms| - len
  {
    if |groups| == 0 then
      assert primes + groups == primes;
      EmptyLevel(terms, len);
      primes
    else
      var level := Scan(groups, 0, 1, Level({}, [], false), terms, len);
      var promoted := primes + Unused(groups, level.used);
      Promote(groups, level, primes, terms, len);
      PromotedUnmergeable(groups, level, primes, len);
      assert AllBuilt(promoted, terms);
      LevelAdvance(groups, level, primes, terms, len);
      if !level.made then promoted
      else
        NextLevelFits(level, groups, terms, len);
        NextBuilt(level, groups, terms, len);
        Generate(level.next, promoted, terms, 2 * len)
  }

  /** An empty level of `len` terms leaves no built implicant of `len` or
      more terms, so the promotions so far are all the prime implicants. */
  lemma EmptyLevel(terms: set<nat>, len: nat)
    requires exists j: nat :: len == Pow2(j)
    requires LevelExact([], terms, len)
    ensures forall g :: Built(g, terms) ==> |g| < len
  {
    var j: nat :| len == Pow2(j);
    NoneAtLeast(terms, j);
  }

  /** What a full scan of the built implicants of `len` terms hands on: the
      promotions are the prime implicants below `2 * len` terms, the next
      level is exactly the built implicants of `2 * len` terms, and a level
      without merges leaves no built implicant of `2 * len` terms or more. */
  lemma LevelAdvance(groups: seq<Group>, level: Level, primes: seq<Group>, terms: set<nat>, len: nat)
    requires 1 <= len && exists j: nat :: len == Pow2(j)
    requires LevelExact(groups, terms, len) && PrimesBelow(primes, terms, len)
    requires LevelOk(level, groups, terms, len)
    requires forall a, b :: 0 <= a < b < |groups| && Combinable(groups[a], groups[b]) ==>
               Merged(level, groups[a], groups[b])
    ensures PrimesBelow(primes + Unused(groups, level.used), terms, 2 * len)
    ensures LevelExact(level.next, terms, 2 * len)
    ensures !level.made ==> forall g :: Built(g, terms) ==> |g| < 2 * len
    ensures exists j: nat :: 2 * len == Pow2(j)
  {
    var j: nat :| len == Pow2(j);
    PromotedPrimes(groups, level, primes, terms, j);
    NextBuilt(level, groups, terms, len);
    NextExact(groups, level, terms, len);
    if !level.made {
      NoneAtLeast(terms, j + 1);
    }
    assert 2 * len == Pow2(j + 1);
  }

  /** A level with a merge has groups of `2 * len` terms drawn from
      `terms`, so `2 * len` does not exceed `|terms|`. */
  lemma NextLevelFits(level: Level, groups: seq<Group>, terms: set<nat>, len: nat)
    requires LevelOk(level, groups, terms, len)
    ensures level.made ==> 2 * len <= |terms|
  {
    if level.made {
      assert level.next[0] in level.next;
      SortedLength(level.next[0], terms);
    }
  }

  /** Every merged group of a level of built implicants is built. */
  lemma NextBuilt(level: Level, groups: seq<Group>, terms: set<nat>, len: nat)
    requires 1 <= len && Sized(groups, len) && AllBuilt(groups, terms)
    requires LevelOk(level, groups, terms, len)
    ensures AllBuilt(level.next, terms)
  {
    forall c | c in level.next ensures Built(c, terms) {
      var a, b :| 0 <= a < b < |groups| && Combinable(groups[a], groups[b])
                  && c == SortedUnion(groups[a], groups[b]);
      assert groups[a] in groups && groups[b] in groups;
      assert |groups[a]| < |c| && |groups[b]| < |c|;
    }
  }

  /** A level hands every term it holds on: a group left unused is promoted,
      a used one lies inside some merged group of the next level, and a level
      without merges has no next level. */
  lemma Promote(groups: seq<Group>, level: Level, primes: seq<Group>, terms: set<nat>, len: nat)
    requires 1 <= len
    requires GroupsOk(groups, terms) && Sized(groups, len)
    requires GroupsOk(primes, terms) && Shorter(primes, len)
    requires LevelOk(level, groups, terms, len)
    ensures var promoted := primes + Unused(groups, level.used);
            && GroupsOk(promoted, terms)
            && Shorter(promoted, 2 * len)
            && (forall p :: p in primes ==> p in promoted)
            && (HoldsAll(terms, primes + groups) ==> HoldsAll(terms, promoted + level.next))
            && (!level.made ==> promoted + level.next == promoted)
  {
  }

  /** A group the scan left unused merges with no group of its level, in
      either order. */
  lemma UnusedUnmergeable(groups: seq<Group>, level: Level)
    requires forall a, b :: 0 <= a < b < |groups| && Combinable(groups[a], groups[b]) ==>
               Merged(level, groups[a], groups[b])
    ensures forall g, h :: g in Unused(groups, level.used) && h in groups ==>
              !Combinable(g, h) && !Combinable(h, g)
  {
    forall g, h | g in Unused(groups, level.used) && h in groups
      ensures !Combinable(g, h) && !Combinable(h, g)
    {
      var a :| 0 <= a < |groups| && groups[a] == g;
      var b :| 0 <= b < |groups| && groups[b] == h;
      CombinableSymmetric(g, h);
      if a == b {
        CombinableIrreflexive(g);
      } else if a < b {
        assert !Merged(level, groups[a], groups[b]);
      } else {
        assert !Merged(level, groups[b], groups[a]);
      }
    }
  }

  /** After a full scan the promoted groups of a level are exactly its
      groups that merge with no group of the level. */
  lemma PromotedExactly(groups: seq<Group>, level: Level)
    requires forall g :: g in level.used ==> InMergeablePair(g, groups)
    requires forall a, b :: 0 <= a < b < |groups| && Combinable(groups[a], groups[b]) ==>
               Merged(level, groups[a], groups[b])
    ensures forall g :: g in Unused(groups, level.used) <==>
              g in groups && forall h :: h in groups ==> !Combinable(g, h)
  {
    UnusedUnmergeable(groups, level);
    forall g | g in groups && g !in Unused(groups, level.used)
      ensures exists h :: h in groups && Combinable(g, h)
    {
      assert g in level.used;
      PairPartner(g, groups);
    }
  }

  /** One side of a mergeable pair merges with the other side. */
  lemma PairPartner(g: Group, groups: seq<Group>)
    requires InMergeablePair(g, groups)
    ensures exists h :: h in groups && Combinable(g, h)
  {
    var a, b :| 0 <= a < b < |groups| && Combinable(groups[a], groups[b])
                && (g == groups[a] || g == groups[b]);
    assert groups[a] in groups && groups[b] in groups;
    CombinableSymmetric(groups[a], groups[b]);
  }

  /** Adding the unused groups of a level to shorter, unmergeable earlier
      promotions keeps the promotions unmergeable. */
  lemma PromotedUnmergeable(groups: seq<Group>, level: Level, primes: seq<Group>, len: nat)
    requires Sized(groups, len) && Shorter(primes, len)
    requires forall a, b :: 0 <= a < b < |groups| && Combinable(groups[a], groups[b]) ==>
               Merged(level, groups[a], groups[b])
    ensures NoMerges(primes) ==> NoMerges(primes + Unused(groups, level.used))
  {
    var newly := Unused(groups, level.used);
    UnusedUnmergeable(groups, level);
    if NoMerges(primes) {
      forall p, q | p in primes + newly && q in primes + newly ensures !Combinable(p, q) {
        if p in newly && q in newly {
          assert q in groups;
        } else if p in newly || q in newly {
          assert |p| != |q|;
        }
      }
    }
  }

  /** `findPrimeImplicants` (script.js:88-120). The `numVars` argument of
      the source is unused there and is dropped. The result is
      de-duplicated by value in order of first promotion. */
  function FindPrimeImplicants(terms: seq<nat>): (r: seq<Group>)
    ensures |terms| == 0 ==> r == []
    ensures Distinct(r)
    ensures forall p :: p in r ==> |p| > 0 && StrictlySorted(p) && DrawnFrom(p, Elems(terms))
    ensures forall t :: t in terms ==> exists p :: p in r && t in p
    ensures forall p, q :: p in r && q in r ==> !Combinable(p, q)
    ensures forall p :: p in r ==> Built(p, Elems(terms))
    ensures forall p :: p in r <==> Prime(p, Elems(terms))
  {
    if |terms| == 0 then
      NothingBuilt(terms);
      []
    else
      var singles := seq(|terms|, k requires 0 <= k < |terms| => [terms[k]]);
      Singles(terms, singles);
      assert [] + singles == singles;
      assert Pow2(0) == 1;
      var all := Generate(singles, [], Elems(terms), 1);
      var r := Dedup(all);
      DedupKeepsPrimes(terms, all, r);
      r
  }

  /** The first level: one singleton group per term. */
  lemma Singles(terms: seq<nat>, singles: seq<Group>)
    requires |singles| == |terms| && forall k :: 0 <= k < |terms| ==> singles[k] == [terms[k]]
    ensures GroupsOk(singles, Elems(terms)) && Sized(singles, 1)
    ensures HoldsAll(Elems(terms), singles)
    ensures AllBuilt(singles, Elems(terms))
    ensures LevelExact(singles, Elems(terms), 1) && PrimesBelow([], Elems(terms), 1)
  {
    forall t | t in Elems(terms) ensures Held(t, singles) {
      var k :| 0 <= k < |terms| && terms[k] == t;
      assert t in singles[k];
    }
    forall g | Built(g, Elems(terms)) ensures |g| >= 1 && (|g| == 1 ==> g in singles) {
      BuiltShape(g, Elems(terms));
      if |g| == 1 {
        assert g[0] in g;
        var k :| 0 <= k < |terms| && terms[k] == g[0];
        assert g == [g[0]] == singles[k];
      }
    }
  }

  /** Without terms nothing is built. */
  lemma NothingBuilt(terms: seq<nat>)
    requires |terms| == 0
    ensures forall p :: !Built(p, Elems(terms))
  {
    forall p | Built(p, Elems(terms)) ensures false {
      BuiltShape(p, Elems(terms));
    }
  }

  /** De-duplication keeps every promoted group and adds none. */
  lemma DedupKeepsPrimes(terms: seq<nat>, all: seq<Group>, r: seq<Group>)
    requires r == Dedup(all)
    requires GroupsOk(all, Elems(terms)) && HoldsAll(Elems(terms), all) && NoMerges(all)
    requires AllBuilt(all, Elems(terms))
    requires forall p :: p in all <==> Prime(p, Elems(terms))
    ensures forall p :: p in r <==> Prime(p, Elems(terms))
    ensures forall p :: p in r ==> |p| > 0 && StrictlySorted(p) && DrawnFrom(p, Elems(terms))
    ensures forall t :: t in terms ==> exists p :: p in r && t in p
    ensures forall p, q :: p in r && q in r ==> !Combinable(p, q)
    ensures forall p :: p in r ==> Built(p, Elems(terms))
  {
    forall t | t in terms ensures exists p :: p in r && t in p {
      assert t in Elems(terms);
      var p :| p in all && t in p;
      assert p in r;
    }
  }
}

=== FILE: literals.dfy ===
/** Literal synthesis, `simplifyGroupSoP` and `simplifyGroupPoS`
    (script.js:167-198): every term of a group is rendered MSB first with
    `decToBin`, and each bit position on which all renderings agree yields a
    literal for the variable of that position. */
module Literals {
  import opened Seqs
  import opened Bits

  /** The variable name of position `i`: the `i`-th letter of
      "ABCDEFGHIJKLMNOPQRSTUVWXYZ" (script.js:170). */
  function Letter(i: nat): (r: char)
    requires i < 26
    ensures IsLetter(r) && LetterIndex(r) == i
  {
    (('A' as int) + i) as char
  }

  /** A literal: the position of its variable and the bit every term of the
      group shows there, as the character `decToBin` writes for it. */
  datatype Literal = Literal(index: nat, bit: char)

  /** The renderings are non-empty and at least `n` characters long. */
  predicate Wide(reps: seq<string>, n: nat) {
    |reps| > 0 && forall k :: 0 <= k < |reps| ==> n <= |reps[k]|
  }

  /** Every rendering shows the first rendering's character at position
      `i` (script.js:175). */
  predicate Agree(reps: seq<string>, n: nat, i: nat)
    requires Wide(reps, n) && i < n
  {
    forall k :: 0 <= k < |reps| ==> reps[k][i] == reps[0][i]
  }

  /** Some literal of `lits` is for the variable at position `j`. */
  predicate HasLiteral(lits: seq<Literal>, j: nat) {
    exists k :: 0 <= k < |lits| && lits[k].index == j
  }

  /** The positions `i` .. `n - 1` examined by the loop of script.js:173-179,
      one literal per agreeing position, in position order. */
  function Shared(reps: seq<string>, n: nat, i: nat): (r: seq<Literal>)
    requires Wide(reps, n) && i <= n
    ensures forall k :: 0 <= k < |r| ==>
              && i <= r[k].index < n
              && r[k].bit == reps[0][r[k].index]
              && Agree(reps, n, r[k].index)
    ensures forall k, k' :: 0 <= k < k' < |r| ==> r[k].index < r[k'].index
    decreases n - i
  {
    if i == n then []
    else
      var rest := Shared(reps, n, i + 1);
      if Agree(reps, n, i) then [Literal(i, reps[0][i])] + rest else rest
  }

  /** No agreeing position is skipped. */
  lemma {:induction false} SharedComplete(reps: seq<string>, n: nat, i: nat)
    requires Wide(reps, n) && i <= n
    ensures forall j :: i <= j < n && Agree(reps, n, j) ==> HasLiteral(Shared(reps, n, i), j)
    decreases n - i
  {
    if i < n {
      SharedComplete(reps, n, i + 1);
      forall j | i <= j < n && Agree(reps, n, j) ensures HasLiteral(Shared(reps, n, i), j) {
        SharedStep(reps, n, i, j);
      }
    }
  }

  lemma SharedStep(reps: seq<string>, n: nat, i: nat, j: nat)
    requires Wide(reps, n) && i <= j < n && Agree(reps, n, j)
    requires i < j ==> HasLiteral(Shared(reps, n, i + 1), j)
    ensures HasLiteral(Shared(reps, n, i), j)
  {
    var rest := Shared(reps, n, i + 1);
    var r := Shared(reps, n, i);
    if Agree(reps, n, i) {
      assert r == [Literal(i, reps[0][i])] + rest;
      if j == i {
        assert r[0].index == j;
      } else {
        var k :| 0 <= k < |rest| && rest[k].index == j;
        assert r[k + 1] == rest[k];
      }
    } else {
      assert r == rest;
    }
  }

  /** The `n`-digit rendering of every term of the group, in order
      (script.js:171). */
  function Reps(group: seq<nat>, n: nat): (r: seq<string>)
    ensures |r| == |group| && forall k :: 0 <= k < |group| ==> r[k] == DecToBin(group[k], n)
  {
    seq(|group|, k requires 0 <= k < |group| => DecToBin(group[k], n))
  }

  /** The literals of a non-empty group. */
  function GroupLiterals(group: seq<nat>, n: nat): (r: seq<Literal>)
    requires |group| > 0
    ensures forall k :: 0 <= k < |r| ==> r[k].index < n && IsDigit(r[k].bit)
  {
    var reps := Reps(group, n);
    var r := Shared(reps, n, 0);
    assert forall k :: 0 <= k < |r| ==> IsDigit(r[k].bit) by {
      forall k | 0 <= k < |r| ensures IsDigit(r[k].bit) {
        assert r[k].bit == DecToBin(group[0], n)[r[k].index];
      }
    }
    r
  }

  /** Every term is a valid `n`-variable term. */
  predicate InRange(group: seq<nat>, n: nat) {
    forall k :: 0 <= k < |group| ==> group[k] < Pow2(n)
  }

  /** The bit of term `t` that belongs to the variable at position `j`
      (position 0 is the most significant of the `n` bits). */
  function VarBit(t: nat, n: nat, j: nat): nat
    requires j < n
  {
    Bit(t, n - 1 - j)
  }

  /** Variable `j` receives a literal exactly when all terms of the group
      share its bit, and the literal records the shared bit. */
  lemma LiteralsExact(group: seq<nat>, n: nat)
    requires |group| > 0 && n <= 32 && InRange(group, n)
    ensures var lits := GroupLiterals(group, n);
            forall j :: 0 <= j < n ==>
              (HasLiteral(lits, j) <==>
               forall m :: 0 <= m < |group| ==> VarBit(group[m], n, j) == VarBit(group[0], n, j))
    ensures var lits := GroupLiterals(group, n);
            forall k :: 0 <= k < |lits| ==> lits[k].bit == Digit(VarBit(group[0], n, lits[k].index))
  {
    var lits := GroupLiterals(group, n);
    forall j | 0 <= j < n
      ensures HasLiteral(lits, j) <==>
              forall m :: 0 <= m < |group| ==> VarBit(group[m], n, j) == VarBit(group[0], n, j)
    {
      AgreeMeans(group, n, j);
      SharedComplete(Reps(group, n), n, 0);
    }
    forall k | 0 <= k < |lits| ensures lits[k].bit == Digit(VarBit(group[0], n, lits[k].index)) {
      RepDigit(group, n, 0, lits[k].index);
    }
  }

  /** Character `j` of the rendering of a valid term is the digit of its
      bit for variable `j`. */
  lemma RepDigit(group: seq<nat>, n: nat, m: nat, j: nat)
    requires m < |group| && j < n <= 32 && InRange(group, n)
    ensures Reps(group, n)[m][j] == Digit(VarBit(group[m], n, j))
  {
    Pow2Below32(n);
    assert group[m] < Pow2(n);
  }

  /** The renderings agree at position `j` exactly when the terms agree on
      the bit of variable `j`. */
  lemma AgreeMeans(group: seq<nat>, n: nat, j: nat)
    requires |group| > 0 && j < n <= 32 && InRange(group, n)
    ensures Agree(Reps(group, n), n, j) <==>
            forall m :: 0 <= m < |group| ==> VarBit(group[m], n, j) == VarBit(group[0], n, j)
  {
    var reps := Reps(group, n);
    forall m | 0 <= m < |group|
      ensures reps[m][j] == reps[0][j] <==> VarBit(group[m], n, j) == VarBit(group[0], n, j)
    {
      AgreeAt(group, n, m, j);
    }
  }

  /** Renderings `m` and `0` agree at `j` exactly when the terms agree on
      the bit of variable `j`. */
  lemma AgreeAt(group: seq<nat>, n: nat, m: nat, j: nat)
    requires m < |group| && j < n <= 32 && InRange(group, n)
    ensures Reps(group, n)[m][j] == Reps(group, n)[0][j] <==>
            VarBit(group[m], n, j) == VarBit(group[0], n, j)
  {
    var a, b := VarBit(group[m], n, j), VarBit(group[0], n, j);
    BitIsBinary(group[m], n - 1 - j);
    BitIsBinary(group[0], n - 1 - j);
    assert a < 2 && b < 2;
    var reps := Reps(group, n);
    RepDigit(group, n, m, j);
    assert reps[m][j] == Digit(a);
    RepDigit(group, n, 0, j);
    assert reps[0][j] == Digit(b);
    DigitInjective(reps[m][j], reps[0][j], a, b);
  }

  lemma DigitInjective(c: char, d: char, a: nat, b: nat)
    requires a < 2 && b < 2 && c == Digit(a) && d == Digit(b)
    ensures c == d <==> a == b
  {
  }

  lemma {:induction false} BitIsBinary(m: nat, k: nat)
    ensures Bit(m, k) < 2
    decreases k
  {
    if k > 0 {
      BitIsBinary(m / 2, k - 1);
    }
  }

  /** Term `t` makes every literal true in SoP reading (equivalently, every
      literal false in PoS reading): it shows the recorded bit at each
      literal's variable. */
  predicate Matches(t: nat, n: nat, lits: seq<Literal>) {
    forall k :: 0 <= k < |lits| ==> lits[k].index < n && Digit(VarBit(t, n, lits[k].index)) == lits[k].bit
  }

  /** Every term of the group satisfies the product term of the SoP form and
      falsifies the sum term of the PoS form. */
  lemma GroupMatches(group: seq<nat>, n: nat)
    requires |group| > 0 && n <= 32 && InRange(group, n)
    ensures forall m :: 0 <= m < |group| ==> Matches(group[m], n, GroupLiterals(group, n))
  {
    LiteralsExact(group, n);
    var lits := GroupLiterals(group, n);
    forall m | 0 <= m < |group| ensures Matches(group[m], n, lits) {
      forall k | 0 <= k < |lits| ensures Digit(VarBit(group[m], n, lits[k].index)) == lits[k].bit {
        assert HasLiteral(lits, lits[k].index);
      }
    }
  }

  /** A group holding all `2^n` terms agrees on no variable, so the constant
      `"1"` (SoP) or `"0"` (PoS) that script.js:169 and script.js:185 return
      for it is exactly the empty product or the empty sum. */
  lemma FullGroupHasNoLiterals(group: seq<nat>, n: nat)
    requires 1 <= n <= 32 && InRange(group, n) && Distinct(group)
    requires |group| == Pow2(n)
    ensures GroupLiterals(group, n) == []
  {
    FullGroupEnds(group, n);
    var lo :| 0 <= lo < |group| && group[lo] == 0;
    var hi :| 0 <= hi < |group| && group[hi] == Pow2(n) - 1;
    var lits := GroupLiterals(group, n);
    forall j | 0 <= j < n ensures !HasLiteral(lits, j) {
      NoLiteralAt(group, n, lo, hi, j);
    }
    NoneLeft(lits, n);
  }

  /** Literals for variables below `n`, none of which has a literal, are none. */
  lemma NoneLeft(lits: seq<Literal>, n: nat)
    requires forall k :: 0 <= k < |lits| ==> lits[k].index < n
    requires forall j :: 0 <= j < n ==> !HasLiteral(lits, j)
    ensures lits == []
  {
    assert lits != [] ==> HasLiteral(lits, lits[0].index);
  }

  /** A group holding both `0` and `2^n - 1` has no literal for variable `j`. */
  lemma NoLiteralAt(group: seq<nat>, n: nat, lo: nat, hi: nat, j: nat)
    requires 1 <= n <= 32 && InRange(group, n)
    requires lo < |group| && hi < |group| && group[lo] == 0 && group[hi] == Pow2(n) - 1
    requires j < n
    ensures !HasLiteral(GroupLiterals(group, n), j)
  {
    LiteralsExact(group, n);
    EndsDisagree(n, j);
    assert VarBit(group[lo], n, j) != VarBit(group[hi], n, j);
  }

  /** The terms `0` and `2^n - 1` differ on every variable. */
  lemma EndsDisagree(n: nat, j: nat)
    requires j < n
    ensures VarBit(0, n, j) != VarBit(Pow2(n) - 1, n, j)
  {
  }

  /** A duplicate-free group of `2^n` valid terms holds both `0` and
      `2^n - 1`. */
  lemma FullGroupEnds(group: seq<nat>, n: nat)
    requires InRange(group, n) && Distinct(group)
    requires |group| == Pow2(n)
    ensures 0 in group && Pow2(n) - 1 in group
  {
    var all := seq(Pow2(n), i => i);
    assert Elems(group) <= Elems(all) by {
      forall x | x in Elems(group) ensures x in Elems(all) {
        var m :| 0 <= m < |group| && group[m] == x;
        assert all[x] == x;
      }
    }
    DistinctCard(group);
    assert Distinct(all);
    DistinctCard(all);
    SubsetEqual(Elems(group), Elems(all));
    assert all[0] == 0 && all[Pow2(n) - 1] == Pow2(n) - 1;
    assert 0 in Elems(all) && Pow2(n) - 1 in Elems(all);
  }

  lemma SubsetEqual(a: set<nat>, b: set<nat>)
    requires a <= b && |a| == |b|
    ensures a == b
  {
    assert b == a + (b - a);
    assert |b - a| == 0;
  }

  /** One literal in SoP form: the letter, then `'` when the shared bit is 0
      (script.js:176-177). */
  function SopLiteral(l: Literal): (r: string)
    requires l.index < 26
    ensures |r| > 0 && r[0] == Letter(l.index)
    ensures IsDigit(l.bit) ==> ParseSop(r) == Some([l])
  {
    var r := [Letter(l.index)] + (if l.bit == '0' then "'" else "");
    assert IsDigit(l.bit) ==> ParseSop(r) == Some([l]) by {
      if IsDigit(l.bit) {
        assert IsLetter(r[0]) && LetterIndex(r[0]) == l.index;
        if l.bit == '0' {
          assert |r| == 2 && r[1] == '\'';
        } else {
          assert |r| == 1;
        }
        var rest := if l.bit == '0' then r[2..] else r[1..];
        assert rest == [] && ParseSop(rest) == Some([]);
        assert ParseSop(r) == Some([Literal(LetterIndex(r[0]), l.bit)] + []);
        assert [Literal(LetterIndex(r[0]), l.bit)] + [] == [l];
      }
    }
    r
  }

  /** One literal in PoS form: the letter, then `'` when the shared bit is 1
      (script.js:192-193). */
  function PosLiteral(l: Literal): (r: string)
    requires l.index < 26
    ensures |r| > 0 && r[0] == Letter(l.index)
    ensures IsDigit(l.bit) ==> ParsePos(r) == Some([l])
  {
    [Letter(l.index)] + (if l.bit == '1' then "'" else "")
  }

  predicate Named(lits: seq<Literal>) {
    forall k :: 0 <= k < |lits| ==> lits[k].index < 26
  }

  /** The SoP product term: the literals concatenated. */
  function SopText(lits: seq<Literal>): string
    requires Named(lits)
  {
    if lits == [] then "" else SopLiteral(lits[0]) + SopText(lits[1..])
  }

  /** `term.join(" + ")` for the PoS literals. */
  function PosJoin(lits: seq<Literal>): string
    requires Named(lits)
  {
    if lits == [] then ""
    else if |lits| == 1 then PosLiteral(lits[0])
    else PosLiteral(lits[0]) + " + " + PosJoin(lits[1..])
  }

  /** A variable name: a capital letter. */
  predicate IsLetter(c: char) {
    'A' <= c <= 'Z'
  }

  /** The position of a variable letter. */
  function LetterIndex(c: char): (r: nat)
    requires IsLetter(c)
    ensures r < 26
  {
    (c as int) - ('A' as int)
  }

  /** Reads an SoP product term back into its literals: each literal is a
      letter, followed by `'` when its bit is 0. Any other character makes
      the text unreadable. */
  function ParseSop(s: string): Option<seq<Literal>>
    decreases |s|
  {
    if s == [] then Some([])
    else if !IsLetter(s[0]) then None
    else
      var bit := if |s| >= 2 && s[1] == '\'' then '0' else '1';
      var rest := if bit == '0' then s[2..] else s[1..];
      match ParseSop(rest)
      case None => None
      case Some(lits) => Some([Literal(LetterIndex(s[0]), bit)] + lits)
  }

  /** Reads the inside of a PoS sum term back into its literals: letters,
      each followed by `'` when its bit is 1, separated by exactly `" + "`.
      Anything else makes the text unreadable. */
  function ParsePos(s: string): Option<seq<Literal>>
    decreases |s|
  {
    if s == [] then Some([])
    else if !IsLetter(s[0]) then None
    else
      var bit := if |s| >= 2 && s[1] == '\'' then '1' else '0';
      var rest := if bit == '1' then s[2..] else s[1..];
      var lit := Literal(LetterIndex(s[0]), bit);
      if rest == [] then Some([lit])
      else if |rest| > 3 && rest[..3] == " + " then
        match ParsePos(rest[3..])
        case None => None
        case Some(lits) => Some([lit] + lits)
      else None
  }

  /** Literals with a named variable and a binary bit. */
  predicate Readable(lits: seq<Literal>) {
    Named(lits) && forall k :: 0 <= k < |lits| ==> IsDigit(lits[k].bit)
  }

  /** The SoP text determines its literals: reading it back gives them. */
  lemma {:induction false} SopRoundTrip(lits: seq<Literal>)
    requires Readable(lits)
    ensures ParseSop(SopText(lits)) == Some(lits)
    decreases |lits|
  {
    if lits != [] {
      var l := lits[0];
      var head := SopLiteral(l);
      var s := head + SopText(lits[1..]);
      assert lits == [l] + lits[1..];
      assert Readable(lits[1..]);
      SopRoundTrip(lits[1..]);
      assert IsLetter(s[0]) && LetterIndex(s[0]) == l.index;
      if l.bit == '0' {
        assert s[1] == '\'';
        assert s[2..] == SopText(lits[1..]);
      } else {
        assert s[1..] == SopText(lits[1..]);
        assert |s| >= 2 ==> s[1] != '\'' by {
          if |s| >= 2 && |lits| > 1 {
            assert s[1] == Letter(lits[1].index);
          }
        }
      }
    }
  }

  /** Conversely, a text that reads as some literals is exactly their SoP
      text, so reading back fixes the text. */
  lemma {:induction false} SopParseExact(s: string)
    ensures ParseSop(s).Some? ==> Readable(ParseSop(s).value) && SopText(ParseSop(s).value) == s
    decreases |s|
  {
    if s != [] && IsLetter(s[0]) {
      var bit := if |s| >= 2 && s[1] == '\'' then '0' else '1';
      var rest := if bit == '0' then s[2..] else s[1..];
      SopParseExact(rest);
      if ParseSop(rest).Some? {
        var l := Literal(LetterIndex(s[0]), bit);
        var lits := ParseSop(rest).value;
        assert ParseSop(s) == Some([l] + lits);
        SopHead(s);
        SopTextCons(l, lits);
      }
    }
  }

  /** The first literal of an SoP text, followed by what is left after it,
      is the whole text. */
  lemma SopHead(s: string)
    requires s != [] && IsLetter(s[0])
    ensures var bit := if |s| >= 2 && s[1] == '\'' then '0' else '1';
            var rest := if bit == '0' then s[2..] else s[1..];
            SopLiteral(Literal(LetterIndex(s[0]), bit)) + rest == s
  {
    var bit := if |s| >= 2 && s[1] == '\'' then '0' else '1';
    var rest := if bit == '0' then s[2..] else s[1..];
    var l := Literal(LetterIndex(s[0]), bit);
    assert SopLiteral(l) == s[..|s| - |rest|];
    assert s == s[..|s| - |rest|] + rest;
  }

  /** A readable literal in front of a readable list puts its own text in
      front of the SoP text. */
  lemma SopTextCons(l: Literal, lits: seq<Literal>)
    requires l.index < 26 && IsDigit(l.bit) && Readable(lits)
    ensures Readable([l] + lits)
    ensures SopText([l] + lits) == SopLiteral(l) + SopText(lits)
  {
    var all := [l] + lits;
    assert all[0] == l && all[1..] == lits;
  }

  /** The PoS text determines its literals: reading it back gives them. */
  lemma {:induction false} PosRoundTrip(lits: seq<Literal>)
    requires Readable(lits)
    ensures ParsePos(PosJoin(lits)) == Some(lits)
    decreases |lits|
  {
    if lits != [] {
      var l := lits[0];
      var head := PosLiteral(l);
      var tail := if |lits| == 1 then "" else " + " + PosJoin(lits[1..]);
      var s := head + tail;
      assert s == PosJoin(lits);
      assert lits == [l] + lits[1..];
      assert IsLetter(s[0]) && LetterIndex(s[0]) == l.index;
      assert Readable(lits[1..]);
      var rest := if l.bit == '1' then s[2..] else s[1..];
      if l.bit == '1' {
        assert s[1] == '\'';
      } else {
        assert |s| >= 2 ==> s[1] != '\'' by {
          if |s| >= 2 {
            assert s[1] == ' ';
          }
        }
      }
      assert rest == tail;
      if |lits| == 1 {
        assert rest == [] && tail == [];
        assert ParsePos(s) == Some([Literal(LetterIndex(s[0]), l.bit)]);
        assert [Literal(LetterIndex(s[0]), l.bit)] == [l] == lits;
      } else {
        PosRoundTrip(lits[1..]);
        assert lits[1..][0] == lits[1] && |PosLiteral(lits[1])| > 0;
        assert rest[..3] == " + " && rest[3..] == PosJoin(lits[1..]);
      }
    }
  }

  /** Conversely, a text that reads as some literals is exactly their PoS
      text, so reading back fixes the text. */
  lemma PosParseExact(s: string)
    ensures ParsePos(s).Some? ==> Readable(ParsePos(s).value) && PosJoin(ParsePos(s).value) == s
    ensures s != [] && ParsePos(s).Some? ==> |ParsePos(s).value| > 0
  {
    if ParsePos(s).Some? {
      PosReadBack(s, ParsePos(s).value);
    }
  }

  /** The induction behind `PosParseExact`, for the literals read. */
  lemma {:induction false} PosReadBack(s: string, lits: seq<Literal>)
    requires ParsePos(s) == Some(lits)
    ensures Readable(lits) && PosJoin(lits) == s
    ensures s != [] ==> |lits| > 0
    decreases |s|
  {
    if s != [] {
      assert IsLetter(s[0]);
      var bit := if |s| >= 2 && s[1] == '\'' then '1' else '0';
      var rest := if bit == '1' then s[2..] else s[1..];
      var l := Literal(LetterIndex(s[0]), bit);
      PosHead(s);
      PosParseUnfold(s);
      if rest == [] {
        assert lits == [l];
        assert PosJoin([l]) == PosLiteral(l);
      } else {
        assert |rest| > 3 && rest[..3] == " + ";
        var more := rest[3..];
        assert ParsePos(more).Some?;
        var tail := ParsePos(more).value;
        PosReadBack(more, tail);
        assert lits == [l] + tail;
        assert rest == " + " + more;
        PosJoinCons(l, tail);
        assert PosJoin(lits) == PosLiteral(l) + " + " + more;
        assert PosLiteral(l) + " + " + more == PosLiteral(l) + rest;
      }
    }
  }

  /** One step of reading a PoS text: the first literal, then nothing, or
      `" + "` and the rest of the text; anything else is rejected. */
  lemma PosParseUnfold(s: string)
    requires s != [] && IsLetter(s[0])
    ensures var bit := if |s| >= 2 && s[1] == '\'' then '1' else '0';
            var rest := if bit == '1' then s[2..] else s[1..];
            var l := Literal(LetterIndex(s[0]), bit);
            && (rest == [] ==> ParsePos(s) == Some([l]))
            && (rest != [] && |rest| > 3 && rest[..3] == " + " && ParsePos(rest[3..]).Some? ==>
                  ParsePos(s) == Some([l] + ParsePos(rest[3..]).value))
            && (rest != [] && |rest| > 3 && rest[..3] == " + " && ParsePos(rest[3..]).None? ==>
                  ParsePos(s).None?)
            && (rest != [] && !(|rest| > 3 && rest[..3] == " + ") ==> ParsePos(s).None?)
  {
  }

  /** The first literal of a PoS text, followed by what is left after it,
      is the whole text. */
  lemma PosHead(s: string)
    requires s != [] && IsLetter(s[0])
    ensures var bit := if |s| >= 2 && s[1] == '\'' then '1' else '0';
            var rest := if bit == '1' then s[2..] else s[1..];
            PosLiteral(Literal(LetterIndex(s[0]), bit)) + rest == s
  {
    var bit := if |s| >= 2 && s[1] == '\'' then '1' else '0';
    var rest := if bit == '1' then s[2..] else s[1..];
    var l := Literal(LetterIndex(s[0]), bit);
    assert PosLiteral(l) == s[..|s| - |rest|];
    assert s == s[..|s| - |rest|] + rest;
  }

  /** A readable literal in front of a non-empty readable list adds it and
      one separator to the PoS text. */
  lemma PosJoinCons(l: Literal, lits: seq<Literal>)
    requires l.index < 26 && IsDigit(l.bit) && lits != [] && Readable(lits)
    ensures Readable([l] + lits)
    ensures PosJoin([l] + lits) == PosLiteral(l) + " + " + PosJoin(lits)
  {
    var all := [l] + lits;
    assert all[0] == l && all[1..] == lits && |all| > 1;
  }

  /** `simplifyGroupSoP` (script.js:167-181): `""` for an empty group, `"1"`
      for the whole space, otherwise the product of the shared literals. */
  function SimplifyGroupSoP(group: seq<nat>, n: nat): (r: string)
    requires n <= 26
    ensures |group| == 0 ==> r == ""
    ensures |group| == Pow2(n) ==> r == "1"
    ensures 0 < |group| != Pow2(n) ==> ParseSop(r) == Some(GroupLiterals(group, n))
  {
    if |group| == 0 then ""
    else if |group| == Pow2(n) then "1"
    else
      var lits := GroupLiterals(group, n);
      SopRoundTrip(lits);
      SopText(lits)
  }

  /** `simplifyGroupPoS` (script.js:183-198): `""` for an empty group, `"0"`
      for the whole space, otherwise the parenthesised sum of the shared
      literals. */
  function SimplifyGroupPoS(group: seq<nat>, n: nat): (r: string)
    requires n <= 26
    ensures |group| == 0 ==> r == ""
    ensures |group| == Pow2(n) ==> r == "0"
    ensures 0 < |group| != Pow2(n) ==>
              && |r| >= 2 && r[0] == '(' && r[|r| - 1] == ')'
              && ParsePos(r[1..|r| - 1]) == Some(GroupLiterals(group, n))
  {
    if |group| == 0 then ""
    else if |group| == Pow2(n) then "0"
    else
      var lits := GroupLiterals(group, n);
      PosRoundTrip(lits);
      var body := PosJoin(lits);
      var r := "(" + body + ")";
      assert r[1..|r| - 1] == body;
      r
  }
}

=== FILE: ranking.dfy ===
/** The ranking of the greedy pass of `selectEssentialImplicants`
    (script.js:146-151): remaining prime implicants, held by their index,
    are stably sorted by descending count of still-uncovered terms, ties
    going to the shorter group, and the first one is taken. */
module Ranking {
  import opened Seqs
  import opened Groups

  /** How many terms of `g` are still uncovered (script.js:147-148). */
  function Gain(g: Group, uncovered: seq<nat>): (r: nat)
    ensures r <= |g|
    ensures r > 0 <==> exists x :: x in g && x in uncovered
  {
    if g == [] then 0
    else (if g[0] in uncovered then 1 else 0) + Gain(g[1..], uncovered)
  }

  /** For a group without repeats the count is the number of distinct
      uncovered terms it holds. */
  lemma {:induction false} GainCounts(g: Group, uncovered: seq<nat>)
    requires Distinct(g)
    ensures Gain(g, uncovered) == |Elems(g) * Elems(uncovered)|
    decreases |g|
  {
    if g != [] {
      assert Distinct(g[1..]) by {
        forall i, j | 0 <= i < j < |g[1..]| ensures g[1..][i] != g[1..][j] {
          assert g[1..][i] == g[i + 1] && g[1..][j] == g[j + 1];
        }
      }
      GainCounts(g[1..], uncovered);
      MeetCons(g, uncovered);
    }
  }

  /** The uncovered terms of a group without repeats are those of its tail,
      plus its head when that is uncovered. */
  lemma MeetCons(g: Group, uncovered: seq<nat>)
    requires g != [] && Distinct(g)
    ensures |Elems(g) * Elems(uncovered)|
            == (if g[0] in uncovered then 1 else 0) + |Elems(g[1..]) * Elems(uncovered)|
  {
    var u := Elems(uncovered);
    var tail := Elems(g[1..]) * u;
    HeadApart(g);
    if g[0] in uncovered {
      assert Elems(g) * u == {g[0]} + tail;
      assert g[0] !in tail;
    } else {
      assert Elems(g) * u == tail;
    }
  }

  /** The elements of a group are its head and those of its tail, and the
      head is not among the latter when there are no repeats. */
  lemma HeadApart(g: Group)
    requires g != [] && Distinct(g)
    ensures Elems(g) == {g[0]} + Elems(g[1..])
    ensures g[0] !in Elems(g[1..])
  {
    assert g == [g[0]] + g[1..];
    forall k | 0 <= k < |g[1..]| ensures g[1..][k] != g[0] {
      assert g[1..][k] == g[k + 1];
    }
  }

  predicate IndicesBelow(s: seq<nat>, n: nat) {
    forall k :: 0 <= k < |s| ==> s[k] < n
  }

  /** The comparator of script.js:149 does not put implicant `a` after
      implicant `b`: `a` covers more uncovered terms, or as many and is not
      longer. */
  predicate Precedes(pis: seq<Group>, uncovered: seq<nat>, a: nat, b: nat)
    requires a < |pis| && b < |pis|
  {
    var ga, gb := Gain(pis[a], uncovered), Gain(pis[b], uncovered);
    ga > gb || (ga == gb && |pis[a]| <= |pis[b]|)
  }

  /** `s` is in the order the comparator asks for. */
  predicate Ranked(pis: seq<Group>, uncovered: seq<nat>, s: seq<nat>) {
    && IndicesBelow(s, |pis|)
    && forall i, j :: 0 <= i < j < |s| ==> Precedes(pis, uncovered, s[i], s[j])
  }

  /** Inserts `x` after every element it does not rank strictly before, so
      that equally ranked elements keep their order. */
  function Insert(pis: seq<Group>, uncovered: seq<nat>, x: nat, s: seq<nat>): (r: seq<nat>)
    requires x < |pis| && IndicesBelow(s, |pis|)
    ensures multiset(r) == multiset(s) + multiset{x}
    ensures Ranked(pis, uncovered, s) ==> Ranked(pis, uncovered, r)
    decreases |s|
  {
    if s == [] then [x]
    else if !Precedes(pis, uncovered, s[0], x) then
      assert Ranked(pis, uncovered, s) ==> Ranked(pis, uncovered, [x] + s) by {
        if Ranked(pis, uncovered, s) {
          forall k | 0 <= k < |s| ensures Precedes(pis, uncovered, x, s[k]) {
            if k > 0 {
              assert Precedes(pis, uncovered, s[0], s[k]);
            }
          }
          RankedCons(pis, uncovered, x, s);
        }
      }
      [x] + s
    else
      var rest := Insert(pis, uncovered, x, s[1..]);
      assert s == [s[0]] + s[1..];
      assert Ranked(pis, uncovered, s) ==> Ranked(pis, uncovered, [s[0]] + rest) by {
        if Ranked(pis, uncovered, s) {
          assert Ranked(pis, uncovered, s[1..]);
          forall k | 0 <= k < |rest| ensures Precedes(pis, uncovered, s[0], rest[k]) {
            var y := rest[k];
            assert y in multiset(rest);
            assert y == x || y in multiset(s[1..]);
            if y != x {
              var m :| 0 <= m < |s[1..]| && s[1..][m] == y;
              assert s[m + 1] == y;
            }
          }
          RankedCons(pis, uncovered, s[0], rest);
        }
      }
      [s[0]] + rest
  }

  /** A ranked list stays ranked behind an element that precedes all of it. */
  lemma RankedCons(pis: seq<Group>, uncovered: seq<nat>, h: nat, t: seq<nat>)
    requires h < |pis| && Ranked(pis, uncovered, t)
    requires forall k :: 0 <= k < |t| ==> Precedes(pis, uncovered, h, t[k])
    ensures Ranked(pis, uncovered, [h] + t)
  {
    var s := [h] + t;
    forall i, j | 0 <= i < j < |s| ensures Precedes(pis, uncovered, s[i], s[j]) {
      assert s[j] == t[j - 1];
      if i > 0 {
        assert s[i] == t[i - 1];
      }
    }
  }

  /** A stable sort by the comparator: the insertion sort of `s`, taking
      its elements left to right. ECMAScript requires `Array.prototype.sort`
      to be stable, and a stable sort with a given comparator has only one
      possible result. */
  function RankSort(pis: seq<Group>, uncovered: seq<nat>, s: seq<nat>): (r: seq<nat>)
    requires IndicesBelow(s, |pis|)
    ensures multiset(r) == multiset(s)
    ensures Ranked(pis, uncovered, r)
    decreases |s|
  {
    if s == [] then []
    else
      var init := s[..|s| - 1];
      assert s == init + [s[|s| - 1]];
      Insert(pis, uncovered, s[|s| - 1], RankSort(pis, uncovered, init))
  }

  datatype Pick = Pick(best: nat, rest: seq<nat>)

  /** One greedy choice, script.js:146-151: sort the remaining implicants,
      then `shift` the first. The chosen implicant covers the most
      uncovered terms of all remaining ones, and among those it is one of
      the shortest; the rest stays in sorted order. */
  function PickBest(pis: seq<Group>, uncovered: seq<nat>, remaining: seq<nat>): (p: Pick)
    requires |remaining| > 0 && IndicesBelow(remaining, |pis|)
    ensures p.best in remaining && p.best < |pis|
    ensures forall i :: i in remaining ==>
              && Gain(pis[p.best], uncovered) >= Gain(pis[i], uncovered)
              && (Gain(pis[p.best], uncovered) == Gain(pis[i], uncovered) ==> |pis[p.best]| <= |pis[i]|)
    ensures multiset(p.rest) + multiset{p.best} == multiset(remaining)
    ensures Ranked(pis, uncovered, p.rest)
  {
    var sorted := RankSort(pis, uncovered, remaining);
    FirstIsBest(pis, uncovered, sorted, remaining);
    Pick(sorted[0], sorted[1..])
  }

  /** The head of a ranked permutation of `remaining` precedes every
      remaining implicant, and the tail is ranked and holds the rest. */
  lemma FirstIsBest(pis: seq<Group>, uncovered: seq<nat>, sorted: seq<nat>, remaining: seq<nat>)
    requires |remaining| > 0 && IndicesBelow(remaining, |pis|)
    requires multiset(sorted) == multiset(remaining) && Ranked(pis, uncovered, sorted)
    ensures |sorted| > 0 && sorted[0] in remaining && sorted[0] < |pis|
    ensures forall i :: i in remaining ==> i < |pis| && Precedes(pis, uncovered, sorted[0], i)
    ensures multiset(sorted[1..]) + multiset{sorted[0]} == multiset(remaining)
    ensures Ranked(pis, uncovered, sorted[1..])
  {
    assert |sorted| > 0 by {
      assert |multiset(sorted)| == |multiset(remaining)|;
    }
    assert sorted == [sorted[0]] + sorted[1..];
    assert sorted[0] in multiset(remaining);
    forall i | i in remaining ensures i < |pis| && Precedes(pis, uncovered, sorted[0], i) {
      assert i in multiset(sorted);
      var k :| 0 <= k < |sorted| && sorted[k] == i;
      if k > 0 {
        assert Precedes(pis, uncovered, sorted[0], sorted[k]);
      }
    }
    assert Ranked(pis, uncovered, sorted[1..]) by {
      forall a, b | 0 <= a < b < |sorted[1..]|
        ensures Precedes(pis, uncovered, sorted[1..][a], sorted[1..][b])
      {
        assert sorted[1..][a] == sorted[a + 1] && sorted[1..][b] == sorted[b + 1];
      }
    }
  }
}

=== FILE: seqs.dfy ===
/** Small sequence helpers shared by the minimiser: distinctness and
    first-occurrence de-duplication (the value of `[...new Set(s)]`). */
module Seqs {

  /** No element occurs twice. */
  predicate Distinct<T(==)>(s: seq<T>) {
    forall i, j :: 0 <= i < j < |s| ==> s[i] != s[j]
  }

  /** `s` with every element of `acc` or of an earlier position dropped,
      appended to `acc`: a JavaScript `Set` filled first with `acc`, then
      with `s`, read back in insertion order. */
  function DedupInto<T(==,!new)>(acc: seq<T>, s: seq<T>): (r: seq<T>)
    ensures Distinct(acc) ==> Distinct(r)
    ensures forall x :: x in r <==> x in acc || x in s
    ensures |acc| <= |r| <= |acc| + |s|
    ensures r[..|acc|] == acc
    decreases |s|
  {
    if s == [] then acc
    else DedupInto(if s[0] in acc then acc else acc + [s[0]], s[1..])
  }

  /** Keeps the first occurrence of every element, in order. */
  function Dedup<T(==,!new)>(s: seq<T>): (r: seq<T>)
    ensures Distinct(r)
    ensures forall x :: x in r <==> x in s
    ensures |r| <= |s|
  {
    DedupInto([], s)
  }

  /** De-duplicating a sequence that has no repeated element changes nothing. */
  lemma {:induction false} DedupIntoDistinct<T(!new)>(acc: seq<T>, s: seq<T>)
    requires Distinct(acc + s)
    ensures DedupInto(acc, s) == acc + s
    decreases |s|
  {
    if s != [] {
      assert (acc + s)[|acc|] == s[0];
      assert s[0] !in acc by {
        forall k | 0 <= k < |acc| ensures acc[k] != s[0] {
          assert (acc + s)[k] == acc[k];
        }
      }
      assert acc + s == (acc + [s[0]]) + s[1..];
      DedupIntoDistinct(acc + [s[0]], s[1..]);
    }
  }

  lemma DedupDistinct<T(!new)>(s: seq<T>)
    requires Distinct(s)
    ensures Dedup(s) == s
  {
    assert [] + s == s;
    DedupIntoDistinct([], s);
  }

  /** Feeding a second batch into the set continues where the first left off. */
  lemma {:induction false} DedupIntoAppend<T(!new)>(acc: seq<T>, a: seq<T>, b: seq<T>)
    ensures DedupInto(acc, a + b) == DedupInto(DedupInto(acc, a), b)
    decreases |a|
  {
    if a == [] {
      assert a + b == b;
    } else {
      assert (a + b)[0] == a[0] && (a + b)[1..] == a[1..] + b;
      DedupIntoAppend(if a[0] in acc then acc else acc + [a[0]], a[1..], b);
    }
  }

  /** Elements already in the set add nothing. */
  lemma {:induction false} DedupIntoAbsorbed<T(!new)>(acc: seq<T>, s: seq<T>)
    requires forall x :: x in s ==> x in acc
    ensures DedupInto(acc, s) == acc
    decreases |s|
  {
    if s != [] {
      assert s[0] in acc;
      DedupIntoAbsorbed(acc, s[1..]);
    }
  }

  /** Appends `x` unless it is already present: `Set.add` on an
      insertion-ordered set, or `Map.set` on a key already present. */
  function AddUnique<T(==,!new)>(s: seq<T>, x: T): (r: seq<T>)
    ensures Distinct(s) ==> Distinct(r)
    ensures forall y :: y in r <==> y in s || y == x
    ensures x in s ==> r == s
    ensures |s| <= |r| <= |s| + 1 && r[..|s|] == s
  {
    if x in s then s else s + [x]
  }

  /** A value that may be missing. */
  datatype Option<T> = None | Some(value: T)

  /** The set of elements of a sequence. */
  function Elems<T>(s: seq<T>): set<T> {
    set x | x in s
  }

  /** A distinct sequence of naturals below `bound` has at most `bound` elements. */
  lemma DistinctBounded(s: seq<nat>, bound: nat)
    requires Distinct(s)
    requires forall x :: x in s ==> x < bound
    ensures |s| <= bound
  {
    var range: seq<nat> := seq(bound, i => i);
    assert Distinct(range);
    assert Elems(s) <= Elems(range) by {
      forall x | x in Elems(s) ensures x in Elems(range) {
        assert range[x] == x;
      }
    }
    DistinctCard(s);
    DistinctCard(range);
    SubsetCard(Elems(s), Elems(range));
  }

  lemma {:induction false} DistinctCard<T>(s: seq<T>)
    requires Distinct(s)
    ensures |Elems(s)| == |s|
    decreases |s|
  {
    if s != [] {
      var tail := s[1..];
      assert Distinct(tail);
      DistinctCard(tail);
      assert Elems(s) == Elems(tail) + {s[0]};
      assert s[0] !in tail;
    }
  }

  lemma SubsetCard<T>(a: set<T>, b: set<T>)
    requires a <= b
    ensures |a| <= |b|
  {
    assert b == a + (b - a);
  }
}

=== FILE: solver.dfy ===
/** The minimiser pipeline of `solveKmap` (script.js:36-52) and the final
    expression of `renderSolution` (script.js:203-204): prepare the terms
    to group and the terms to cover, generate the prime implicants, select
    a cover, synthesise one term per selected group and join them. */
module Solver {
  import opened Seqs
  import opened Bits
  import opened Groups
  import opened Implicants
  import opened Cover
  import opened Literals

  /** The term type: minterms give a sum of products, maxterms a product
      of sums (`termType === 'min'` or not). */
  datatype Mode = SoP | PoS

  /** What the input layer hands the core: 2 to 5 variables, both term
      lists ascending without repeats, every term in range, and no term
      both required and don't-care. */
  predicate ValidInput(n: nat, required: seq<nat>, dontCares: seq<nat>) {
    && 2 <= n <= 5
    && StrictlySorted(required) && StrictlySorted(dontCares)
    && (forall k :: 0 <= k < |required| ==> required[k] < Pow2(n))
    && (forall k :: 0 <= k < |dontCares| ==> dontCares[k] < Pow2(n))
    && (forall t :: t in required ==> t !in dontCares)
  }

  /** The terms `from` .. `limit - 1` that are not required, ascending
      (script.js:41-45). */
  function Absent(required: seq<nat>, from: nat, limit: nat): (r: seq<nat>)
    ensures forall t :: t in r <==> from <= t < limit && t !in required
    ensures forall k :: 0 <= k < |r| ==> from <= r[k]
    ensures StrictlySorted(r)
    decreases limit - from
  {
    if from >= limit then []
    else
      var rest := Absent(required, from + 1, limit);
      if from in required then rest else [from] + rest
  }

  /** The terms to group and the terms to cover. */
  datatype Prepared = Prepared(group: seq<nat>, cover: seq<nat>)

  /** script.js:36-48. For SoP the group is the required terms followed by
      the don't-cares, and the required terms are covered. For PoS the
      zero terms (all `2^n` terms that are not required) are covered and
      grouped together with the don't-cares. */
  function Prepare(mode: Mode, n: nat, required: seq<nat>, dontCares: seq<nat>): (p: Prepared)
    ensures Distinct(p.group)
    ensures forall t :: t in p.cover ==> t in p.group
    ensures mode == SoP ==> p.cover == required
    ensures mode == PoS ==> forall t: nat :: t in p.cover <==> t < Pow2(n) && t !in required
    ensures forall t :: t in p.group <==> t in p.cover || t in dontCares
  {
    match mode
    case SoP => Prepared(Dedup(required + dontCares), required)
    case PoS =>
      var zero := Absent(required, 0, Pow2(n));
      var group := Dedup(zero + dontCares);
      assert forall t :: t in group <==> t in zero || t in dontCares;
      Prepared(group, zero)
  }

  /** In PoS mode every don't-care is a zero term (it is not required), so
      the don't-cares are covered too and the union of script.js:46 adds
      nothing: the group is exactly the list of zero terms. */
  lemma PosGroupIsCover(n: nat, required: seq<nat>, dontCares: seq<nat>)
    requires ValidInput(n, required, dontCares)
    ensures var p := Prepare(PoS, n, required, dontCares);
            p.group == p.cover && forall t :: t in dontCares ==> t in p.cover
  {
    var zero := Absent(required, 0, Pow2(n));
    forall t | t in dontCares ensures t in zero {
      var k :| 0 <= k < |dontCares| && dontCares[k] == t;
    }
    assert [] + zero == zero;
    DedupIntoAppend([], zero, dontCares);
    SortedDistinct(zero);
    DedupIntoDistinct([], zero);
    DedupIntoAbsorbed(zero, dontCares);
  }

  /** Every prepared term is a valid `n`-variable term. */
  lemma PreparedInRange(mode: Mode, n: nat, required: seq<nat>, dontCares: seq<nat>)
    requires ValidInput(n, required, dontCares)
    ensures var p := Prepare(mode, n, required, dontCares);
            && Distinct(p.cover)
            && forall t :: t in p.group ==> t < Pow2(n)
  {
  }

  /** `simplifyFn` (script.js:51-52): the term of a selected group in the
      mode's form. The whole space is the mode's neutral constant, and any
      other non-empty group reads back as its literals, as a product for SoP
      and as a parenthesised sum for PoS. */
  function Simplify(mode: Mode, group: seq<nat>, n: nat): (r: string)
    requires n <= 26
    ensures |group| == 0 ==> r == ""
    ensures |group| == Pow2(n) ==> r == (if mode == SoP then "1" else "0")
    ensures mode == SoP && 0 < |group| != Pow2(n) ==> ParseSop(r) == Some(GroupLiterals(group, n))
    ensures mode == PoS && 0 < |group| != Pow2(n) ==>
              && |r| >= 2 && r[0] == '(' && r[|r| - 1] == ')'
              && ParsePos(r[1..|r| - 1]) == Some(GroupLiterals(group, n))
  {
    match mode
    case SoP => SimplifyGroupSoP(group, n)
    case PoS => SimplifyGroupPoS(group, n)
  }

  /** The total length of the strings of `terms`. */
  function TotalLength(terms: seq<string>): nat
    decreases |terms|
  {
    if terms == [] then 0 else |terms[0]| + TotalLength(terms[1..])
  }

  /** `terms.join(sep)`: the terms in order, one separator between each
      neighbouring pair. */
  function Join(terms: seq<string>, sep: string): (r: string)
    ensures |terms| > 0 ==> terms[0] <= r
    ensures |terms| > 0 ==> |r| == TotalLength(terms) + (|terms| - 1) * |sep|
    decreases |terms|
  {
    if terms == [] then ""
    else if |terms| == 1 then terms[0]
    else terms[0] + sep + Join(terms[1..], sep)
  }

  /** Appending a term to a non-empty list appends one separator and the
      term to the join. With the first-term and length facts of `Join`,
      this fixes every join. */
  lemma {:induction false} JoinSnoc(terms: seq<string>, t: string, sep: string)
    requires |terms| > 0
    ensures Join(terms + [t], sep) == Join(terms, sep) + sep + t
    decreases |terms|
  {
    var all := terms + [t];
    assert all[0] == terms[0] && all[1..] == terms[1..] + [t];
    if |terms| > 1 {
      JoinSnoc(terms[1..], t, sep);
    } else {
      assert all[1..] == [t];
    }
  }

  /** A join is empty exactly when every joined term is empty and no
      separator is written. */
  lemma {:induction false} JoinEmpty(terms: seq<string>, sep: string)
    ensures Join(terms, sep) == "" <==>
              (forall k :: 0 <= k < |terms| ==> terms[k] == "") && (|terms| <= 1 || sep == "")
    decreases |terms|
  {
    if |terms| > 1 {
      JoinEmpty(terms[1..], sep);
      var r := Join(terms, sep);
      assert |r| == |terms[0]| + |sep| + |Join(terms[1..], sep)|;
      if (forall k :: 0 <= k < |terms| ==> terms[k] == "") && sep == "" {
        assert forall k :: 0 <= k < |terms[1..]| ==> terms[1..][k] == "";
      }
      if r == "" {
        forall k | 0 <= k < |terms| ensures terms[k] == "" {
          if k > 0 {
            assert terms[k] == terms[1..][k - 1];
          }
        }
      }
    }
  }

  /** The separator between synthesised terms (script.js:203). */
  function Operator(mode: Mode): string {
    match mode
    case SoP => " + "
    case PoS => ""
  }

  /** The expression of a function with no selected group: constant false
      for SoP, constant true for PoS (script.js:204). */
  function Fallback(mode: Mode): string {
    match mode
    case SoP => "0"
    case PoS => "1"
  }

  /** The final expression (script.js:203-204): the synthesised terms
      joined by the mode's operator, or the mode's constant when the join
      is empty. */
  function ComposeExpression(terms: seq<string>, mode: Mode): (r: string)
    ensures r != ""
    ensures |terms| == 0 ==> r == Fallback(mode)
  {
    var joined := Join(terms, Operator(mode));
    if joined == "" then Fallback(mode) else joined
  }

  /** The fallback constant is used exactly when the join comes out empty:
      every synthesised term is empty, and there is at most one of them or
      the mode is PoS. */
  lemma ComposeFallsBack(terms: seq<string>, mode: Mode)
    ensures ComposeExpression(terms, mode) == Join(terms, Operator(mode)) <==>
              !((forall k :: 0 <= k < |terms| ==> terms[k] == "") && (|terms| <= 1 || mode == PoS))
  {
  }

  /** The grouping stage of `solveKmap` (script.js:35-49): prepare the
      terms, generate the prime implicants and select a cover. Every term to
      cover lies in a selected group whose literals it satisfies (SoP) or
      falsifies (PoS), and every selected group is a prime implicant of the
      terms to group. */
  method SelectGroups(mode: Mode, n: nat, required: seq<nat>, dontCares: seq<nat>) returns (groups: seq<Group>)
    requires ValidInput(n, required, dontCares)
    ensures var p := Prepare(mode, n, required, dontCares);
            && (|p.cover| == 0 ==> groups == [])
            && (forall k :: 0 <= k < |groups| ==>
                  |groups[k]| > 0 && StrictlySorted(groups[k]) && DrawnFrom(groups[k], Elems(p.group)))
            && (forall k :: 0 <= k < |groups| ==> Built(groups[k], Elems(p.group)))
            && (forall k :: 0 <= k < |groups| ==> Prime(groups[k], Elems(p.group)))
            && (forall t :: t in p.cover ==>
                  exists k :: 0 <= k < |groups| && t in groups[k] && Matches(t, n, GroupLiterals(groups[k], n)))
  {
    var p := Prepare(mode, n, required, dontCares);
    PreparedInRange(mode, n, required, dontCares);
    var pis := FindPrimeImplicants(p.group);
    PrimesCover(p, pis);
    var picked;
    groups, picked := SelectEssentialImplicants(pis, p.cover);
    SelectedGroups(n, p, pis, groups, picked);
  }

  /** `solveKmap` (script.js:36-52) without its rendering: the selected
      groups, the synthesised term of each (script.js:51-52), and the final
      expression of script.js:203-204. */
  method Solve(mode: Mode, n: nat, required: seq<nat>, dontCares: seq<nat>)
    returns (groups: seq<Group>, terms: seq<string>, expression: string)
    requires ValidInput(n, required, dontCares)
    ensures var p := Prepare(mode, n, required, dontCares);
            && (|p.cover| == 0 ==> groups == [] && expression == Fallback(mode))
            && (forall k :: 0 <= k < |groups| ==>
                  |groups[k]| > 0 && StrictlySorted(groups[k]) && DrawnFrom(groups[k], Elems(p.group)))
            && (forall k :: 0 <= k < |groups| ==> Built(groups[k], Elems(p.group)))
            && (forall k :: 0 <= k < |groups| ==> Prime(groups[k], Elems(p.group)))
            && (forall t :: t in p.cover ==>
                  exists k :: 0 <= k < |groups| && t in groups[k] && Matches(t, n, GroupLiterals(groups[k], n)))
    ensures |terms| == |groups|
    ensures forall k :: 0 <= k < |groups| ==> terms[k] == Simplify(mode, groups[k], n)
    ensures expression == ComposeExpression(terms, mode)
  {
    groups := SelectGroups(mode, n, required, dontCares);
    terms := seq(|groups|, k requires 0 <= k < |groups| => Simplify(mode, groups[k], n));
    expression := ComposeExpression(terms, mode);
  }

  /** Every term to cover is a term to group, so some prime implicant
      holds it. */
  lemma PrimesCover(p: Prepared, pis: seq<Group>)
    requires forall t :: t in p.cover ==> t in p.group
    requires forall t :: t in p.group ==> exists q :: q in pis && t in q
    ensures Covers(pis, p.cover)
  {
  }

  /** The selected groups are prime implicants, so they are made of terms
      to group, and every term to cover satisfies the literals of a
      selected group that holds it. */
  lemma SelectedGroups(n: nat, p: Prepared, pis: seq<Group>, groups: seq<Group>, picked: seq<nat>)
    requires n <= 32 && forall t :: t in p.group ==> t < Pow2(n)
    requires forall q :: q in pis ==> |q| > 0 && StrictlySorted(q) && DrawnFrom(q, Elems(p.group))
    requires forall q :: q in pis ==> Built(q, Elems(p.group))
    requires forall q :: q in pis ==> Prime(q, Elems(p.group))
    requires |groups| == |picked|
    requires forall k :: 0 <= k < |picked| ==> picked[k] < |pis| && groups[k] == pis[picked[k]]
    requires forall t :: t in p.cover ==> exists k :: 0 <= k < |groups| && t in groups[k]
    ensures forall k :: 0 <= k < |groups| ==>
              |groups[k]| > 0 && StrictlySorted(groups[k]) && DrawnFrom(groups[k], Elems(p.group))
    ensures forall k :: 0 <= k < |groups| ==> Built(groups[k], Elems(p.group))
    ensures forall k :: 0 <= k < |groups| ==> Prime(groups[k], Elems(p.group))
    ensures forall t :: t in p.cover ==>
              exists k :: 0 <= k < |groups| && t in groups[k] && Matches(t, n, GroupLiterals(groups[k], n))
  {
    forall k | 0 <= k < |groups|
      ensures |groups[k]| > 0 && StrictlySorted(groups[k]) && DrawnFrom(groups[k], Elems(p.group))
      ensures Built(groups[k], Elems(p.group)) && Prime(groups[k], Elems(p.group))
    {
      assert pis[picked[k]] in pis;
    }
    forall t | t in p.cover
      ensures exists k :: 0 <= k < |groups| && t in groups[k] && Matches(t, n, GroupLiterals(groups[k], n))
    {
      var k :| 0 <= k < |groups| && t in groups[k];
      var g := groups[k];
      assert pis[picked[k]] in pis;
      assert InRange(g, n) by {
        forall m | 0 <= m < |g| ensures g[m] < Pow2(n) {
          assert g[m] in Elems(p.group);
        }
      }
      GroupMatches(g, n);
      var m :| 0 <= m < |g| && g[m] == t;
    }
  }
}
